=== FILE: README.md ===
# oar project orchestration, modelled in Dafny

oar manages Docker Compose projects that live in git repositories. This project models two parts of its
`services` package:

- the **project service** (`services/project.go`). Every operation is written as a pure transition over a `World`:
  - the project and deployment stores;
  - the set of existing directories;
  - the progress stream, as a log of the lines sent and of the close;
  - the log of side-effecting collaborator calls.

  The operations are the status enumeration, project creation (cloning, or relocating a prepared checkout),
  start/stop (plain and streaming), deployment, log streaming and removal. Whatever git, Docker Compose, the
  filesystem or the database would answer is passed in as an *oracle* argument. The service's own logic is
  modelled as written: sequencing, cleanup on failure, error wrapping, and when it sends `OAR_MSG` lines and
  closes the stream.
- the **file-list codec** (`services/repository.go`): an ordered list of paths is stored as one NUL-separated
  text column.

Modules:

| file | module | contents |
|---|---|---|
| outcomes.dfy | `Outcomes` | `Option`, `Result`, `Outcome`, the error values and `fmt.Errorf("…: %w")` wrapping |
| status.dfy | `Status` | `ProjectStatus` as an `int`, `String`, `ParseProjectStatus` |
| filelist.dfy | `FileList` | `parseFiles` / `serializeFiles` over `strings.Split` / `strings.Join` |
| paths.dfy | `Paths` | path join and parent, directory trees, `RemoveAll`, `Rename` |
| stream.dfy | `Stream` | the `OAR_MSG:<level>:<text>` wire format and the "sends, then one close" discipline |
| store.dfy | `Store` | records, the `World`, the repository operations with the schema's constraints |
| service.dfy | `ProjectService` | the service operations |
| properties.dfy | `ServiceProperties` | invariants, call ordering and message sequences across whole operations |

Behaviour of the code worth knowing, all of it modelled as written:

- `StartStreaming` (services/project.go:357-394) neither sends tagged messages nor closes the stream; only the
  other three streaming operations close it (`ServiceProperties.StartStreamingSilent`).
- When creation cannot read the latest commit, services/project.go:188-189 still sets `lastCommit`, to the value
  the lookup returned (`ProjectService.CreateFromTempClone`).
- `ParseProjectStatus` (services/project.go:47-48) returns `Unknown` *together with* an error for an unrecognised
  string (`Status.Parse`).
- The file-list round trip of services/repository.go:146-155 holds for every NUL-free list except `[""]`, which
  comes back as `[]` (`FileList.ParseSerialize`, `FileList.SingleEmptyPathCollapses`).
- A failed commit lookup during deployment (services/project.go:253-262) returns the git error unwrapped (`ServiceProperties.DeployErrors`), whereas
  the other deployment failures are wrapped with context.

## Model

| member | source | states |
|---|---|---|
| Status.ToString | services/project.go:22-35 | Total. Exactly Running, Stopped and Error have their own names. Unknown and every out-of-range integer print as "unknown". |
| Status.Parse | services/project.go:37-50 | Only the four names parse without error. Any other string gives Unknown together with an invalid-status error that carries the string. |
| Status.ParseToString | services/project.go:22-50 | Each of the four declared statuses survives String then ParseProjectStatus, with no error. |
| Status.ToStringParse | services/project.go:22-50 | A string that parses cleanly prints back unchanged. |
| Status.OutOfRangeCollapses | services/project.go:32-33 | An integer outside the four constants does not round-trip: it comes back as Unknown. |
| FileList.ParseFiles | services/repository.go:146-151 | The empty string parses to the empty list. Any other string parses to a non-empty list. No parsed path contains NUL. |
| FileList.SerializeFiles | services/repository.go:153-155 | The empty list serialises to the empty string. |
| FileList.SerializeParse | services/repository.go:146-155 | Serialising what was parsed gives back the stored string, for every string. |
| FileList.ParseSerialize | services/repository.go:146-155 | Parsing what was serialised gives back the list, for every NUL-free list other than `[""]`. |
| FileList.SingleEmptyPathCollapses | services/repository.go:146-155 | `[""]` serialises to "" and reads back as `[]`. |
| FileList.SerializeInjective | services/repository.go:153-155 | Two NUL-free lists with the same stored form are equal, except for the pair `[]`, `[""]`. |
| FileList.ParseCount | services/repository.go:150 | A non-empty stored string holds one more path than it has NULs. |
| FileList.JoinSplit | services/repository.go:150-154 | Joining the pieces of a split, with NUL between them, rebuilds the string. |
| FileList.SplitJoin | services/repository.go:150-154 | Splitting the join of a non-empty NUL-free list gives back the list, element by element and in order. |
| FileList.JoinLength | services/repository.go:153-155 | The stored length is the sum of the path lengths plus one separator between each pair. |
| FileList.JoinPlacesElements | services/repository.go:153-155 | Path i sits at offset (lengths before it + i), and exactly one NUL follows it unless it is last. The output keeps the list's order. |
| Paths.RemoveTree | services/project.go:152 | RemoveAll deletes the root and everything below it, and nothing else. |
| Paths.Rename | services/project.go:150 | A renamed directory exists at its target. Every path below the source reappears at the same place below the target. Paths outside the source tree are untouched, and nothing else appears. The source is gone unless it lies inside the target. |
| Stream.DecodeFormat | services/project.go:245-250 | Every orchestrator line `OAR_MSG:<level>:<text>` reads back as its level and text, even when the text holds colons. |
| Stream.FormatDecode | services/project.go:245-250 | Every line that reads as a tagged message is exactly the formatted form of what it reads as. |
| Stream.OwnMessagesTagged | services/project.go:274 | Corollary of `Stream.DecodeFormat` at a stream position: every own message on the stream is a well-formed tagged line. |
| Stream.SendsThenClosedOnce | services/project.go:230 | Sends followed by one close, appended to earlier sends, still close exactly once. |
| Store.FindByID | services/repository.go:39-50 | Succeeds exactly when the id is stored, and then returns that stored row under that id. A missing id gives the not-found error. |
| Store.CreateProjectRow | services/repository.go:60-73 | A duplicate id or name is refused by the schema. Otherwise the store's outcome decides. Only a success adds the row. |
| Store.UpdateProjectRow | services/repository.go:75-80 | Replaces an existing row only on success. Never adds or removes a key. |
| Store.DeleteProjectRow | services/repository.go:82-92 | On success the row is gone and so are its deployments (cascade). Other deployments stay unchanged, and none is added. On failure nothing changes. |
| Store.CreateDeploymentRow | services/repository.go:120-123 | A duplicate id or unknown project is refused. Only a success adds the row. |
| Store.RemoveDir | services/project.go:497 | On success nothing at or below the directory remains, everything else stays, and nothing is added. On failure nothing changes. |
| ProjectService.PlaceCheckout | services/project.go:126-185 | Success exactly when the clone succeeds, or when the prepared directory exists and MkdirAll and Rename succeed. The checkout then exists and the prepared path is gone. Never calls the repository. Every directory outside the prepared tree survives. The only directories that can appear are the checkout's parent and the checkout's tree; a clone adds at most the checkout itself. |
| ProjectService.Relocate | services/project.go:128-167 | A missing prepared directory fails with not-exist and changes nothing. Otherwise the calls are MkdirAll of the parent, then the rename, then the cleanup only if the rename failed. Success exactly when MkdirAll and Rename succeed. Only the prepared tree can go, and only the parent and the checkout's tree can appear. |
| ProjectService.CreateFromTempClone | services/project.go:109-219 | The working dir is always overwritten with `<workspace>/<id>`. A missing prepared directory stops before any call. A failed rename removes the prepared directory and returns the rename error. A failed create removes the working dir, keeps no record and returns the repository error. Success stores the record with the commit taken. The repository is called exactly when the git dir resolves and the checkout is in place. Creation succeeds exactly when, in addition, the id and name are new and the repository create succeeds. Every directory outside the prepared tree and the working dir survives, and only the checkout's parent and tree can appear. |
| ProjectService.CreateIn | services/project.go:126-218 | The same promises, once the git dir is known: success iff placement, new id and name, and repository success, plus the directory frame. With no prepared directory the first call is the clone. |
| ProjectService.RegisterCheckout | services/project.go:196-216 | The repository create is always called first. Success exactly when the id and name are new and the repository create succeeds, and then exactly that record is added and the directories are unchanged. A refusal keeps no record, removes the working dir as the only other call, and returns the repository error when the schema did not refuse. The directories are then exactly those outside the working dir's tree if the cleanup succeeded, and unchanged otherwise. |
| ProjectService.Create | services/project.go:104-106 | Creation clones first. A failed clone stores nothing. Success stores the record. It happens exactly when the git dir resolves, the clone succeeds, the id and name are new and the repository create succeeds. Every directory outside the working dir survives, and the checkout is the only directory that can appear. |
| ProjectService.Start | services/project.go:314-355 | Unknown id: the wrapped not-found error, no calls. A failed compose up: no update call, a wrapped error, nothing stored. Otherwise one update, and success exactly when it succeeds, leaving the row Running. |
| ProjectService.Stop | services/project.go:396-437 | As Start, with compose down and Stopped. |
| ProjectService.StartStreaming | services/project.go:357-394 | Calls compose up, then updates the row only if compose succeeded. What reaches the stream is exactly compose's output lines: no own messages, never a close. A compose failure comes back wrapped. The status becomes Running exactly when compose and the update succeed. |
| ProjectService.StopStreaming | services/project.go:439-481 | Closes the stream exactly once on every path, sending nothing for an unknown id. For a stored project it calls compose down, then updates the row only if compose succeeded. The stream receives the announcement, exactly compose's output lines, the success message only if compose succeeded, then the close. A compose failure comes back wrapped. The status becomes Stopped exactly when compose and the update succeed. |
| ProjectService.Shutdown | services/project.go:459-480 | For a found project: compose down is called, and the row is updated only if compose succeeded. The stream gets the announcement, exactly compose's output lines, the success message only on success, then exactly one close. A compose failure comes back wrapped, otherwise the update's outcome. |
| ProjectService.ComposeDownPhase | services/project.go:459-460 | Exactly one compose down call. The stream gets the announcement and then exactly compose's output lines, with no close. Stores and directories are untouched. |
| ProjectService.MarkStopped | services/project.go:477-480 | The success message, one update to Stopped, then the close. Returns the update's outcome. The row changes only when the update succeeds. |
| ProjectService.PullLatestChanges | services/project.go:557-572 | A git-dir failure returns before any pull. Otherwise exactly one pull, and a pull failure comes back wrapped. |
| ProjectService.PullPhase | services/project.go:244-251 | With pull requested: the announcement, then the success or error message, with the error text as rendered. Stores untouched, stream left open. |
| ProjectService.ComposeUpPhase | services/project.go:272-292 | Announcement, the forwarded compose output, then the success message only when compose succeeded. One compose call. |
| ProjectService.Persist | services/project.go:294-311 | The deployment row is written first. The project row is written only if that succeeded, marked Running at the commit. Success exactly when both writes succeed. A refused deployment write comes back wrapped as "failed to update deployment record", and a refused project write as "failed to update project status". The stream is closed. |
| ProjectService.DeployFromCommit | services/project.go:253-311 | A failed commit lookup or compose up persists nothing. The calls are compose up then the writes. Success exactly when every later step succeeds. A failed commit lookup returns the git error unwrapped. A compose failure and each write failure come back wrapped with their own context. |
| ProjectService.DeployStreaming | services/project.go:225-312 | Closes the stream exactly once on every path. An unknown id sends nothing before the close. A git-dir failure comes back wrapped. Nothing is persisted unless pull, commit lookup and compose up all succeeded. The project row changes only once the deployment row was written. |
| ProjectService.GetLogsStreaming | services/project.go:516-555 | For a stored project it requests the compose logs, once, and the stream receives exactly their lines, then the close. An unknown id gets only the close. Stores untouched. A logs failure comes back wrapped. |
| ProjectService.Remove | services/project.go:483-514 | A failed stop leaves directory and record intact. The calls are down, update, directory removal, then delete. Success removes the row, its deployments and the directory tree, and exactly those: every other project's deployments and every directory outside the working dir survive. After a successful stop, a failed removal changes nothing but the status, and a failed delete removes only the working dir's tree. Each comes back wrapped with its own context. |
| ProjectService.RemoveStopped | services/project.go:496-504 | The directory removal comes first. The delete is called only if it succeeded. A failed removal changes nothing else and comes back wrapped. Once the removal succeeded, the directories are exactly those outside the tree, whatever the delete does. A failed delete keeps the record and every deployment. Success leaves no row and none of its deployments, and keeps every other deployment. |
| ServiceProperties.DeployErrors | services/project.go:244-309 | For a stored project with a git dir, the error of each failing step: pull, compose up, deployment write and project write come back wrapped with their own context. The commit lookup's error comes back unwrapped. |
| ServiceProperties.DeploySuccess | services/project.go:292-311 | A deployment succeeds exactly when every collaborator does. The project is then Running at the deployed commit. |
| ServiceProperties.DeployWritesInOrder | services/project.go:244-309 | If the project row is updated, the whole call sequence was: optional pull, compose up, deployment write, project update. |
| ServiceProperties.CommitWritesInOrder | services/project.go:272-309 | After the pull, the project update comes directly after the deployment write, which comes after compose up. |
| ServiceProperties.DeployRowEffect | services/project.go:298-311 | The project row ends untouched, or Running at the commit that was looked up. |
| ServiceProperties.DeployKeepsConsistent | services/project.go:225-312 | Store invariant kept: rows keyed by id, working dir under the workspace, unique names, no dangling deployment. |
| ServiceProperties.StartKeepsConsistent | services/project.go:314-355 | Store invariant kept by Start. |
| ServiceProperties.StopKeepsConsistent | services/project.go:396-437 | Store invariant kept by Stop. |
| ServiceProperties.StartStreamingKeepsConsistent | services/project.go:357-394 | Store invariant kept by StartStreaming. |
| ServiceProperties.StopStreamingKeepsConsistent | services/project.go:439-481 | Store invariant kept by StopStreaming. |
| ServiceProperties.GetLogsKeepsConsistent | services/project.go:516-555 | Store invariant kept by GetLogsStreaming. |
| ServiceProperties.RemoveKeepsConsistent | services/project.go:483-514 | Store invariant kept by Remove, including the cascade. |
| ServiceProperties.CreateKeepsConsistent | services/project.go:109-219 | Store invariant kept by creation: the new row has its own id and the workspace dir, and the store refuses duplicate names. |
| ServiceProperties.DeployNotFoundSilent | services/project.go:230-236 | An unknown project gets only the close. |
| ServiceProperties.DeployPullFailureMessages | services/project.go:244-249 | A failed pull sends a default message, then an error message, then closes, and returns the wrapped pull error. |
| ServiceProperties.DeployMessages | services/project.go:244-292 | Levels of the own messages: default+success for the pull if requested, then default, then success only if compose succeeded. |
| ServiceProperties.StopStreamingMessages | services/project.go:459-477 | Levels of the own messages: default, then success only if compose succeeded. |
| ServiceProperties.StartStreamingSilent | services/project.go:357-394 | No own messages and no close. |
| ServiceProperties.StopIdempotent | services/project.go:396-437 | A second successful stop leaves the stored projects as after the first. |
| ServiceProperties.StartThenStop | services/project.go:314-437 | Successful Start then Stop leaves the row Stopped and otherwise unchanged, after exactly up, update, down, update. |

## Left out

- `services/git.go` is not part of this model. Clone, pull, open and head lookups are oracle outcomes. Pull's "already up to date" answer counts as a successful pull.
- The gorm method bodies are not modelled; the stores are maps whose writes may fail by oracle. The schema constraints of `models/models.go` are kept: primary keys, unique project name, deployment foreign key, cascading delete. Database failures of `FindByID` are folded into "not found".
- `Store.UpdateProjectRow`: gorm's `Updates` skips zero-valued fields. The model replaces the whole row instead.
- `List`, `Get`, `GetByName`, `Update`, `NewProjectService` and the record mappers are not modelled. `Get` and `Update` only delegate to the repository, which is modelled.
- `Project.GitDir`, `NewComposeProject`, `NewDeployment` and `DeploymentStatusCompleted` are not part of this model. Their results are oracle values (git directory, deployment id and command line) or fixed (`InProgress` with empty output, then `Completed`).
- `ProjectService.Start` / `ProjectService.Stop`: the captured compose output is only logged, so it is not modelled.
- Logging, uuid generation and Go channel concurrency are not modelled. The stream is a sequential log of sends and the close.
- `Paths.Rename`, `Store.RemoveDir`: paths are strings joined with '/', without `filepath.Clean`.
  - `MkdirAll` adds only the requested directory, not its ancestors.
  - A failed `RemoveAll` is taken to remove nothing. A partial removal is not modelled.
  - `os.Stat` errors other than "does not exist" count as existing.
- ProjectService.PlaceCheckout: a successful clone adds only the checkout directory. `git.PlainClone` also creates
  its missing parents, including the working dir. Which parents those are depends on `Project.GitDir`, which is not
  part of this model.
- `Outcomes.Text`: Go's `%q` escaping of an invalid status is rendered as plain double quotes.
- `FileList.ParseSerialize`: the list `[""]` does not round-trip; it comes back as `[]`, as `FileList.SingleEmptyPathCollapses` states.

=== FILE: filelist.dfy ===
/** The file-list codec of services/repository.go:145-155: an ordered list of
    paths is stored as one text column, the paths joined by NUL. Parsing is
    `strings.Split` on NUL, except that the empty string parses to the empty
    list. */
module FileList {

  const NUL: char := '\0'

  /** `strings.Split(s, "\x00")`: the maximal NUL-free pieces of `s`, in order.
      Never empty; splitting "" gives [""]. */
  function Split(s: string): (r: seq<string>)
    ensures |r| >= 1
    ensures forall i :: 0 <= i < |r| ==> NUL !in r[i]
    decreases |s|
  {
    if |s| == 0 then [""]
    else
      var rest := Split(s[1..]);
      if s[0] == NUL then [""] + rest
      else [[s[0]] + rest[0]] + rest[1..]
  }

  /** `strings.Join(xs, "\x00")`. */
  function Join(xs: seq<string>): string
    decreases |xs|
  {
    if |xs| == 0 then ""
    else if |xs| == 1 then xs[0]
    else xs[0] + [NUL] + Join(xs[1..])
  }

  /** `parseFiles`. */
  function ParseFiles(s: string): (r: seq<string>)
    ensures s == "" <==> r == []
    ensures forall i :: 0 <= i < |r| ==> NUL !in r[i]
  {
    if s == "" then [] else Split(s)
  }

  /** `serializeFiles`. */
  function SerializeFiles(files: seq<string>): (r: string)
    ensures files == [] ==> r == ""
  {
    Join(files)
  }

  /** No element of the list contains the separator. */
  predicate NulFree(xs: seq<string>)
  {
    forall i :: 0 <= i < |xs| ==> NUL !in xs[i]
  }

  /** Number of occurrences of `c` in `s`. */
  function Count(s: string, c: char): nat
    decreases |s|
  {
    if |s| == 0 then 0 else (if s[0] == c then 1 else 0) + Count(s[1..], c)
  }

  /** Total length of the elements. */
  function SumLengths(xs: seq<string>): nat
    decreases |xs|
  {
    if |xs| == 0 then 0 else |xs[0]| + SumLengths(xs[1..])
  }

  /** Where element `i` starts in `Join(xs)`: the lengths before it plus one separator each. */
  function Offset(xs: seq<string>, i: nat): nat
    requires i <= |xs|
  {
    SumLengths(xs[..i]) + i
  }

  // ---------------------------------------------------------------------------
  // Join after Split

  lemma {:induction false} JoinSplit(s: string)
    ensures Join(Split(s)) == s
    decreases |s|
  {
    if |s| > 0 {
      var rest := Split(s[1..]);
      JoinSplit(s[1..]);
      if s[0] == NUL {
        assert Split(s) == [""] + rest;
        assert Join([""] + rest) == "" + [NUL] + Join(rest);
        assert s == [s[0]] + s[1..];
      } else if |rest| == 1 {
        assert Split(s) == [[s[0]] + rest[0]];
        assert Join(rest) == rest[0];
        assert s == [s[0]] + s[1..];
      } else {
        var xs := Split(s);
        assert xs == [[s[0]] + rest[0]] + rest[1..];
        assert xs[1..] == rest[1..];
        assert Join(rest) == rest[0] + [NUL] + Join(rest[1..]);
        calc {
          Join(xs);
          xs[0] + [NUL] + Join(xs[1..]);
          [s[0]] + rest[0] + [NUL] + Join(rest[1..]);
          [s[0]] + Join(rest);
          [s[0]] + s[1..];
          s;
        }
      }
    }
  }

  /** `serializeFiles(parseFiles(s)) == s` for every stored string. */
  lemma SerializeParse(s: string)
    ensures SerializeFiles(ParseFiles(s)) == s
  {
    if s != "" {
      JoinSplit(s);
    }
  }

  // ---------------------------------------------------------------------------
  // Split after Join

  /** A NUL-free string is one piece. */
  lemma {:induction false} SplitNulFree(w: string)
    requires NUL !in w
    ensures Split(w) == [w]
    decreases |w|
  {
    if |w| > 0 {
      assert NUL !in w[1..] by {
        forall k | 0 <= k < |w[1..]| ensures w[1..][k] != NUL {
          assert w[1..][k] == w[k + 1];
        }
      }
      SplitNulFree(w[1..]);
      assert w == [w[0]] + w[1..];
    }
  }

  /** A NUL-free piece followed by a separator splits off as the first element. */
  lemma {:induction false} SplitPiece(w: string, t: string)
    requires NUL !in w
    ensures Split(w + [NUL] + t) == [w] + Split(t)
    decreases |w|
  {
    var s := w + [NUL] + t;
    if |w| == 0 {
      assert s == [NUL] + t;
      assert s[1..] == t;
    } else {
      assert NUL !in w[1..] by {
        forall k | 0 <= k < |w[1..]| ensures w[1..][k] != NUL {
          assert w[1..][k] == w[k + 1];
        }
      }
      assert s[1..] == w[1..] + [NUL] + t;
      SplitPiece(w[1..], t);
      var rest := Split(s[1..]);
      assert rest == [w[1..]] + Split(t);
      assert s[0] == w[0];
      assert [s[0]] + rest[0] == w;
      assert rest[1..] == Split(t);
    }
  }

  lemma {:induction false} SplitJoin(xs: seq<string>)
    requires |xs| >= 1 && NulFree(xs)
    ensures Split(Join(xs)) == xs
    decreases |xs|
  {
    if |xs| == 1 {
      SplitNulFree(xs[0]);
    } else {
      assert NulFree(xs[1..]) by {
        forall k | 0 <= k < |xs[1..]| ensures NUL !in xs[1..][k] {
          assert xs[1..][k] == xs[k + 1];
        }
      }
      SplitJoin(xs[1..]);
      SplitPiece(xs[0], Join(xs[1..]));
      assert xs == [xs[0]] + xs[1..];
    }
  }

  lemma JoinNonEmpty(xs: seq<string>)
    requires |xs| >= 2 || (|xs| == 1 && xs[0] != "")
    ensures Join(xs) != ""
  {
    if |xs| >= 2 {
      assert |Join(xs)| >= 1;
    }
  }

  /** `parseFiles(serializeFiles(xs)) == xs` for every NUL-free list except the
      single empty path. */
  lemma ParseSerialize(xs: seq<string>)
    requires NulFree(xs)
    requires xs != [""]
    ensures ParseFiles(SerializeFiles(xs)) == xs
  {
    if xs != [] {
      JoinNonEmpty(xs);
      SplitJoin(xs);
    }
  }

  /** The one NUL-free list the codec loses: a single empty path reads back as no paths. */
  lemma SingleEmptyPathCollapses()
    ensures SerializeFiles([""]) == ""
    ensures ParseFiles(SerializeFiles([""])) == []
  {
  }

  /** Two NUL-free lists that serialise alike are equal, unless they are `[]` and `[""]`. */
  lemma SerializeInjective(xs: seq<string>, ys: seq<string>)
    requires NulFree(xs) && NulFree(ys)
    requires SerializeFiles(xs) == SerializeFiles(ys)
    ensures xs == ys || {xs, ys} == {[], [""]}
  {
    if xs != [""] && ys != [""] {
      ParseSerialize(xs);
      ParseSerialize(ys);
    }
  }

  // ---------------------------------------------------------------------------
  // Shape of the parsed list

  lemma {:induction false} SplitCount(s: string)
    ensures |Split(s)| == Count(s, NUL) + 1
    decreases |s|
  {
    if |s| > 0 {
      SplitCount(s[1..]);
    }
  }

  /** A non-empty stored string holds one more path than it has separators. */
  lemma ParseCount(s: string)
    requires s != ""
    ensures |ParseFiles(s)| == Count(s, NUL) + 1
  {
    SplitCount(s);
  }

  // ---------------------------------------------------------------------------
  // Shape of the serialised string

  lemma {:induction false} JoinLength(xs: seq<string>)
    requires |xs| >= 1
    ensures |SerializeFiles(xs)| == SumLengths(xs) + |xs| - 1
    decreases |xs|
  {
    if |xs| >= 2 {
      JoinLength(xs[1..]);
    }
  }

  lemma {:induction false} SumLengthsSplit(xs: seq<string>, i: nat)
    requires 1 <= i <= |xs|
    ensures SumLengths(xs[..i]) == |xs[0]| + SumLengths(xs[1..][..i - 1])
  {
    assert xs[..i][1..] == xs[1..][..i - 1];
  }

  /** Element `i` appears in the serialised string at `Offset(xs, i)`, and
      between two consecutive elements there is exactly one separator: the
      output keeps the elements in their original order. */
  lemma {:induction false} JoinPlacesElements(xs: seq<string>, i: nat)
    requires i < |xs|
    ensures Offset(xs, i) + |xs[i]| <= |Join(xs)|
    ensures Join(xs)[Offset(xs, i) .. Offset(xs, i) + |xs[i]|] == xs[i]
    ensures i + 1 < |xs| ==>
              Offset(xs, i) + |xs[i]| < |Join(xs)| && Join(xs)[Offset(xs, i) + |xs[i]|] == NUL
    decreases |xs|
  {
    if |xs| == 1 {
      assert xs[..0] == [];
    } else if i == 0 {
      assert xs[..0] == [];
      assert Join(xs) == xs[0] + [NUL] + Join(xs[1..]);
    } else {
      JoinPlacesElements(xs[1..], i - 1);
      SumLengthsSplit(xs, i);
      var tail := Join(xs[1..]);
      var k := Offset(xs[1..], i - 1);
      assert Offset(xs, i) == |xs[0]| + 1 + k;
      assert Join(xs) == xs[0] + [NUL] + tail;
      assert xs[1..][i - 1] == xs[i];
      var j := Join(xs);
      assert j[|xs[0]| + 1 ..] == tail;
      assert j[Offset(xs, i) .. Offset(xs, i) + |xs[i]|] == tail[k .. k + |xs[i]|];
    }
  }
}

=== FILE: outcomes.dfy ===
/** Error values and the success/failure wrappers every service operation returns.
    Go's `(T, error)` pairs become `Result<T>`, a bare `error` becomes `Outcome`. */
module Outcomes {

  datatype Option<+T> = None | Some(value: T)

  /** The errors the service can hand back. Failures of collaborators whose
      internals are not modelled (git, compose, the filesystem, the store)
      are `Tool`; `Wrapped` is Go's `fmt.Errorf("<context>: %w", cause)`. */
  datatype Error =
    | RecordNotFound                        // the store has no row with the requested key
    | Constraint(text: string)              // the store refused a write: duplicate key or dangling reference
    | NotExist(path: string)                // os.Stat reported that the path does not exist
    | Tool(text: string)                    // any other failure of an external collaborator
    | InvalidStatus(value: string)          // an unrecognised project status string
    | Wrapped(context: string, cause: Error)

  /** The error's message, as `err.Error()` renders it. */
  function Text(e: Error): string
  {
    match e
    case RecordNotFound => "record not found"
    case Constraint(t) => t
    case NotExist(p) => "stat " + p + ": no such file or directory"
    case Tool(t) => t
    case InvalidStatus(v) => "invalid project status: \"" + v + "\""
    case Wrapped(c, inner) => c + ": " + Text(inner)
  }

  datatype Result<+T> = Ok(value: T) | Err(error: Error)

  datatype Outcome = Pass | Fail(error: Error)
}

=== FILE: paths.dfy ===
/** The filesystem as the service sees it: a set of existing directory paths.
    `filepath.Join`/`filepath.Dir` are modelled on '/'-separated strings
    without Go's lexical cleaning; `os.RemoveAll` and `os.Rename` act on a
    whole subtree. */
module Paths {

  type Path = string

  /** `filepath.Join(dir, name)`. */
  function Join(dir: Path, name: string): (r: Path)
    ensures Within(r, dir)
  {
    dir + "/" + name
  }

  /** `p` is `root` or lies below it. */
  predicate Within(p: Path, root: Path)
  {
    p == root || (|root| < |p| && p[..|root| + 1] == root + "/")
  }

  /** Index of the last '/' in `p`, or -1. */
  function LastSlash(p: Path): (i: int)
    ensures -1 <= i < |p|
    ensures i >= 0 ==> p[i] == '/'
    ensures forall k :: i < k < |p| ==> p[k] != '/'
    decreases |p|
  {
    if |p| == 0 then -1
    else if p[|p| - 1] == '/' then |p| - 1
    else LastSlash(p[..|p| - 1])
  }

  /** `filepath.Dir(p)`: everything before the last separator. */
  function Parent(p: Path): Path
  {
    var i := LastSlash(p);
    if i < 0 then "." else if i == 0 then "/" else p[..i]
  }

  /** `os.MkdirAll(p)`: `p` exists afterwards. */
  function MakeDirs(dirs: set<Path>, p: Path): set<Path>
  {
    dirs + {p}
  }

  /** `os.RemoveAll(root)`: `root` and everything below it disappear, nothing else does. */
  function RemoveTree(dirs: set<Path>, root: Path): (r: set<Path>)
    ensures r <= dirs
    ensures forall q :: q in dirs ==> (q in r <==> !Within(q, root))
  {
    set q | q in dirs && !Within(q, root)
  }

  /** `os.Rename(from, to)` of a directory: the subtree under `from` moves under `to`. */
  function Rename(dirs: set<Path>, from: Path, to: Path): (r: set<Path>)
    ensures from in dirs ==> to in r
    ensures forall q :: q in dirs && !Within(q, from) ==> q in r
    ensures !Within(from, to) ==> from !in r
    // every path of the moved subtree reappears under `to` ...
    ensures forall q :: q in dirs && Within(q, from) ==> to + q[|from|..] in r
    // ... and nothing else appears
    ensures forall q :: q in r ==>
              || (q in dirs && !Within(q, from))
              || exists s :: s in dirs && Within(s, from) && q == to + s[|from|..]
    // in particular, every path that appears lies under `to`
    ensures forall q :: q in r && q !in dirs ==> Within(q, to)
  {
    MovedTreeFacts(dirs, from, to);
    forall s | s in dirs && Within(s, from) ensures Within(to + s[|from|..], to) {
      RerootedWithin(s, from, to);
    }
    RemoveTree(dirs, from) + Moved(dirs, from, to)
  }

  /** A path under `from`, re-rooted at `to`, lies under `to`. */
  lemma RerootedWithin(s: Path, from: Path, to: Path)
    requires Within(s, from)
    ensures Within(to + s[|from|..], to)
  {
    var q := to + s[|from|..];
    if s != from {
      assert s[|from|..][0] == s[..|from| + 1][|from|] == '/';
      assert q[..|to| + 1] == to + "/";
    }
  }

  /** The paths of the subtree under `from`, re-rooted at `to`. */
  function Moved(dirs: set<Path>, from: Path, to: Path): set<Path>
  {
    set q | q in dirs && Within(q, from) :: to + q[|from|..]
  }

  lemma MovedTreeFacts(dirs: set<Path>, from: Path, to: Path)
    ensures from in dirs ==> to in Moved(dirs, from, to)
    ensures !Within(from, to) ==> from !in Moved(dirs, from, to)
  {
    if from in dirs {
      assert to + from[|from|..] == to;
    }
    if from in Moved(dirs, from, to) {
      var q :| q in dirs && Within(q, from) && from == to + q[|from|..];
      if q != from {
        assert q[..|from| + 1] == from + "/";
        assert q[|from|..][0] == '/';
        assert from[..|to| + 1] == to + "/";
      }
    }
  }
}

=== FILE: properties.dfy ===
/** Properties of the orchestration service that concern one operation's
    whole run or relate several operations. */
module ServiceProperties {
  import opened Outcomes
  import opened Paths
  import opened Store
  import opened ProjectService
  import Status
  import Stream

  /** `DeployStreaming` succeeds exactly when every collaborator does, and then
      the project is running at the deployed commit (services/project.go:292-311). */
  lemma DeploySuccess(w: World, id: Id, pull: bool, o: DeployOracle)
    ensures DeployStreaming(w, id, pull, o).outcome.Pass? <==> DeploySucceeds(w, id, pull, o)
    ensures DeploySucceeds(w, id, pull, o) ==>
              DeployStreaming(w, id, pull, o).world.projects ==
              w.projects[id := w.projects[id].(id := id, status := Status.Running, lastCommit := Some(o.commit.value))]
  {
  }

  /** The project row is updated only straight after the deployment row was
      written, and both only after the (optional) pull and the compose run
      (services/project.go:302-309). */
  lemma DeployWritesInOrder(w: World, id: Id, pull: bool, o: DeployOracle)
    ensures var r := DeployStreaming(w, id, pull, o);
            UpdateProject(id) in NewCalls(w, r.world) ==>
              && o.gitDir.Ok?
              && NewCalls(w, r.world) == (if pull then [Pull(o.gitDir.value)] else []) +
                                         [ComposeUp(id), CreateDeployment(o.deploymentID), UpdateProject(id)]
  {
    var r := DeployStreaming(w, id, pull, o);
    if id in w.projects && o.gitDir.Ok? {
      var p := FindByID(w, id).value;
      var pulled := PullPhase(w, pull, o);
      if pulled.outcome.Pass? {
        var d := DeployFromCommit(pulled.world, p, o);
        assert r == d;
        CallsChain(w, pulled.world, d.world);
        CommitWritesInOrder(pulled.world, p, o);
        assert NewCalls(w, pulled.world) == if pull then [Pull(o.gitDir.value)] else [];
      } else {
        assert r.world.calls == pulled.world.calls;
      }
    }
  }

  /** The error a failed deployment of a stored project returns (services/project.go:244-309):
      each failure is wrapped with the context of its step, except the commit lookup's,
      which comes back as the git executor gave it. */
  lemma DeployErrors(w: World, id: Id, pull: bool, o: DeployOracle)
    ensures var r := DeployStreaming(w, id, pull, o);
            var reached := id in w.projects && o.gitDir.Ok? && (pull ==> o.pull.Pass?);
            && (id in w.projects && o.gitDir.Ok? && pull && o.pull.Fail? ==>
                  r.outcome == Fail(Wrapped("failed to pull changes", o.pull.error)))
            && (reached && o.commit.Err? ==> r.outcome == Fail(o.commit.error))
            && (reached && o.commit.Ok? && o.up.outcome.Fail? ==>
                  r.outcome == Fail(Wrapped("failed to start project", o.up.outcome.error)))
            && (reached && o.commit.Ok? && o.up.outcome.Pass? && o.deploymentID !in w.deployments && o.saveDeployment.Fail? ==>
                  r.outcome == Fail(Wrapped("failed to update deployment record", o.saveDeployment.error)))
            && (reached && o.commit.Ok? && o.up.outcome.Pass? && DeploymentSaved(w, o) && o.saveProject.Fail? ==>
                  r.outcome == Fail(Wrapped("failed to update project status", o.saveProject.error)))
  {
    var r := DeployStreaming(w, id, pull, o);
    if id in w.projects && o.gitDir.Ok? {
      var p := FindByID(w, id).value;
      var pulled := PullPhase(w, pull, o);
      if pulled.outcome.Pass? {
        assert r == DeployFromCommit(pulled.world, p, o);
        assert pulled.world.deployments == w.deployments;
      }
    }
  }

  /** After the pull, the project row is written only straight after the deployment row. */
  lemma CommitWritesInOrder(w: World, p: Project, o: DeployOracle)
    requires p.id in w.projects
    ensures var r := DeployFromCommit(w, p, o);
            UpdateProject(p.id) in NewCalls(w, r.world) ==>
              NewCalls(w, r.world) == [ComposeUp(p.id), CreateDeployment(o.deploymentID), UpdateProject(p.id)]
  {
    var r := DeployFromCommit(w, p, o);
    if o.commit.Ok? && o.up.outcome.Pass? {
      var up := ComposeUpPhase(w, p.id, o.up);
      var persisted := Persist(up.world, p, o.commit.value, o);
      assert r == persisted;
      CallsChain(w, up.world, persisted.world);
    }
  }

  // ---------------------------------------------------------------------------
  // The store invariant survives every operation

  /** Changing one row's status keeps the store invariant. */
  lemma ConsistentAfterStatus(w: World, w': World, workspace: Path, id: Id, st: Status.ProjectStatus)
    requires Consistent(w, workspace)
    requires w'.deployments == w.deployments
    requires || w'.projects == w.projects
             || (id in w.projects && w'.projects == w.projects[id := w.projects[id].(id := id, status := st)])
    ensures Consistent(w', workspace)
  {
  }

  lemma StartKeepsConsistent(w: World, workspace: Path, id: Id, o: ExecOracle)
    requires Consistent(w, workspace)
    ensures Consistent(Start(w, id, o).world, workspace)
  {
    ConsistentAfterStatus(w, Start(w, id, o).world, workspace, id, Status.Running);
  }

  lemma StopKeepsConsistent(w: World, workspace: Path, id: Id, o: ExecOracle)
    requires Consistent(w, workspace)
    ensures Consistent(Stop(w, id, o).world, workspace)
  {
    ConsistentAfterStatus(w, Stop(w, id, o).world, workspace, id, Status.Stopped);
  }

  lemma StartStreamingKeepsConsistent(w: World, workspace: Path, id: Id, o: StreamExecOracle)
    requires Consistent(w, workspace)
    ensures Consistent(StartStreaming(w, id, o).world, workspace)
  {
    ConsistentAfterStatus(w, StartStreaming(w, id, o).world, workspace, id, Status.Running);
  }

  lemma StopStreamingKeepsConsistent(w: World, workspace: Path, id: Id, o: StreamExecOracle)
    requires Consistent(w, workspace)
    ensures Consistent(StopStreaming(w, id, o).world, workspace)
  {
    ConsistentAfterStatus(w, StopStreaming(w, id, o).world, workspace, id, Status.Stopped);
  }

  lemma GetLogsKeepsConsistent(w: World, workspace: Path, id: Id, logs: ComposeRun)
    requires Consistent(w, workspace)
    ensures Consistent(GetLogsStreaming(w, id, logs).world, workspace)
  {
  }

  /** The project row `DeployStreaming` leaves: untouched, or marked running at the deployed commit. */
  lemma DeployRowEffect(w: World, id: Id, pull: bool, o: DeployOracle)
    ensures var r := DeployStreaming(w, id, pull, o);
            || r.world.projects == w.projects
            || (&& id in w.projects && o.commit.Ok?
                && r.world.projects ==
                   w.projects[id := w.projects[id].(id := id, status := Status.Running, lastCommit := Some(o.commit.value))])
  {
    if id in w.projects && o.gitDir.Ok? {
      var p := FindByID(w, id).value;
      var pulled := PullPhase(w, pull, o);
      if pulled.outcome.Pass? {
        var d := DeployFromCommit(pulled.world, p, o);
        assert DeployStreaming(w, id, pull, o) == d;
        assert d.outcome.Fail? ==> d.world.projects == pulled.world.projects by {
          if o.commit.Ok? && o.up.outcome.Pass? {
            var up := ComposeUpPhase(pulled.world, p.id, o.up);
            assert d == Persist(up.world, p, o.commit.value, o);
          }
        }
      }
    }
  }

  lemma ConsistentAfterDeploy(w: World, w': World, workspace: Path, id: Id, c: string, d: Id, dep: Deployment)
    requires Consistent(w, workspace)
    requires || w'.projects == w.projects
             || (id in w.projects &&
                 w'.projects == w.projects[id := w.projects[id].(id := id, status := Status.Running, lastCommit := Some(c))])
    requires w'.deployments == w.deployments || (id in w.projects && dep.projectID == id && w'.deployments == w.deployments[d := dep])
    ensures Consistent(w', workspace)
  {
  }

  lemma DeployKeepsConsistent(w: World, workspace: Path, id: Id, pull: bool, o: DeployOracle)
    requires Consistent(w, workspace)
    ensures Consistent(DeployStreaming(w, id, pull, o).world, workspace)
  {
    var r := DeployStreaming(w, id, pull, o);
    DeployRowEffect(w, id, pull, o);
    if id !in w.projects {
      assert r.world.projects == w.projects && r.world.deployments == w.deployments;
    } else if o.commit.Ok? {
      ConsistentAfterDeploy(w, r.world, workspace, id, o.commit.value, o.deploymentID, DeployedRecord(id, o.commit.value, o));
    } else {
      assert r.world.projects == w.projects && r.world.deployments == w.deployments;
    }
  }

  /** Deleting a row together with its deployments keeps the store invariant. */
  lemma ConsistentAfterDelete(w: World, w': World, workspace: Path, id: Id)
    requires Consistent(w, workspace)
    requires w'.projects == w.projects - {id}
    requires forall d :: d in w'.deployments ==> d in w.deployments && w'.deployments[d] == w.deployments[d]
    requires forall d :: d in w'.deployments ==> w'.deployments[d].projectID != id
    ensures Consistent(w', workspace)
  {
  }

  lemma RemoveKeepsConsistent(w: World, workspace: Path, id: Id, o: RemoveOracle)
    requires Consistent(w, workspace)
    ensures Consistent(Remove(w, id, o).world, workspace)
  {
    var r := Remove(w, id, o);
    if id in w.projects {
      var p := FindByID(w, id).value;
      var stopped := Stop(w, id, o.stop);
      StopKeepsConsistent(w, workspace, id, o.stop);
      if stopped.outcome.Pass? {
        var removed := RemoveDir(stopped.world, p.workingDir, o.removeDir);
        if removed.outcome.Pass? {
          var deleted := DeleteProjectRow(removed.world, id, o.delete);
          assert r.world == deleted.world;
          if deleted.outcome.Pass? {
            assert deleted.world.projects == stopped.world.projects - {id};
            ConsistentAfterDelete(stopped.world, deleted.world, workspace, id);
          }
        }
      }
    }
  }

  lemma CreateKeepsConsistent(w: World, workspace: Path, project: Project, tempClonePath: Path, o: CreateOracle)
    requires Consistent(w, workspace)
    ensures Consistent(CreateFromTempClone(w, workspace, project, tempClonePath, o).world, workspace)
  {
  }

  // ---------------------------------------------------------------------------
  // What the streaming operations tell the consumer

  /** An unknown project gets no message at all, only the close. */
  lemma DeployNotFoundSilent(w: World, id: Id, pull: bool, o: DeployOracle)
    requires id !in w.projects
    ensures var r := DeployStreaming(w, id, pull, o);
            Stream.Emitted(w.stream, r.world.stream) == [Stream.Close]
  {
  }

  /** A failed pull is announced, then reported as an error, then the stream closes. */
  lemma DeployPullFailureMessages(w: World, id: Id, o: DeployOracle)
    requires id in w.projects && o.gitDir.Ok? && o.pull.Fail?
    ensures var r := DeployStreaming(w, id, true, o);
            && r.outcome == Fail(Wrapped("failed to pull changes", o.pull.error))
            && Stream.OwnLevels(Stream.Emitted(w.stream, r.world.stream)) == [Stream.Default, Stream.Error]
            && r.world.stream[|r.world.stream| - 1] == Stream.Close
  {
    var r := DeployStreaming(w, id, true, o);
    var pulled := PullPhase(w, true, o);
    assert r.world == CloseStream(pulled.world);
    var sent := Stream.Emitted(w.stream, pulled.world.stream);
    assert Stream.Emitted(w.stream, r.world.stream) == sent + [Stream.Close];
    Stream.OwnLevelsAppend(sent, [Stream.Close]);
    assert Stream.OwnLevels([Stream.Close]) == [];
  }

  /** A deployment that gets as far as compose up announces the optional pull and
      its success, then the compose run and, if it succeeded, its completion. */
  lemma DeployMessages(w: World, id: Id, pull: bool, o: DeployOracle)
    requires id in w.projects && o.gitDir.Ok? && (pull ==> o.pull.Pass?) && o.commit.Ok?
    ensures var r := DeployStreaming(w, id, pull, o);
            Stream.OwnLevels(Stream.Emitted(w.stream, r.world.stream)) ==
              (if pull then [Stream.Default, Stream.Success] else []) +
              [Stream.Default] + (if o.up.outcome.Pass? then [Stream.Success] else [])
  {
    var r := DeployStreaming(w, id, pull, o);
    var pulled := PullPhase(w, pull, o);
    var up := ComposeUpPhase(pulled.world, id, o.up);
    DeployStreamShape(w, id, pull, o);
    Stream.EmittedThenClose(w.stream, pulled.world.stream, up.world.stream);
    var first := Stream.Emitted(w.stream, pulled.world.stream);
    if pull {
      PairLevels(first[0], first[1]);
      assert first == [first[0], first[1]];
    } else {
      assert first == [];
    }
    DeployLevels(first, Stream.Message(Stream.Default, "Starting Docker Compose deployment..."), o.up.lines,
                 Stream.Message(Stream.Success, "Docker Compose deployment completed successfully"), o.up.outcome.Pass?);
  }

  /** Past the pull and the commit lookup, the stream ends with the compose
      phase's events and the close. */
  lemma DeployStreamShape(w: World, id: Id, pull: bool, o: DeployOracle)
    requires id in w.projects && o.gitDir.Ok? && (pull ==> o.pull.Pass?) && o.commit.Ok?
    ensures var pulled := PullPhase(w, pull, o);
            DeployStreaming(w, id, pull, o).world.stream == ComposeUpPhase(pulled.world, id, o.up).world.stream + [Stream.Close]
  {
    var p := FindByID(w, id).value;
    var pulled := PullPhase(w, pull, o);
    var up := ComposeUpPhase(pulled.world, id, o.up);
    var d := DeployFromCommit(pulled.world, p, o);
    assert DeployStreaming(w, id, pull, o) == d;
    if o.up.outcome.Pass? {
      assert d == Persist(up.world, p, o.commit.value, o);
    }
  }

  /** The level bookkeeping behind `DeployMessages`, on the emitted events alone:
      what was sent before, an announcement, forwarded output, an optional
      success message and the close. */
  lemma DeployLevels(first: seq<Stream.Event>, announce: Stream.Event, lines: seq<string>, done: Stream.Event, ok: bool)
    requires announce.Message? && done.Message?
    ensures Stream.OwnLevels(first + ([announce] + Stream.Forwarded(lines) + (if ok then [done] else [])) + [Stream.Close]) ==
              Stream.OwnLevels(first) + [announce.level] + (if ok then [done.level] else [])
  {
    var tail := if ok then [done] else [];
    assert first + ([announce] + Stream.Forwarded(lines) + tail) + [Stream.Close] ==
           (first + [announce]) + Stream.Forwarded(lines) + (tail + [Stream.Close]);
    Stream.OwnLevelsAround(first + [announce], lines, tail + [Stream.Close]);
    Stream.ClosingLevels(done, ok);
    Stream.OwnLevelsAppend(first, [announce]);
    Stream.OwnLevelsCons(announce, []);
    assert [announce] + [] == [announce];
  }

  /** The levels of two own messages in a row. */
  lemma PairLevels(m1: Stream.Event, m2: Stream.Event)
    requires m1.Message? && m2.Message?
    ensures Stream.OwnLevels([m1, m2]) == [m1.level, m2.level]
  {
    Stream.OwnLevelsCons(m1, [m2]);
    Stream.OwnLevelsCons(m2, []);
    assert [m2] + [] == [m2];
    assert [m1] + [m2] == [m1, m2];
  }

  /** `StopStreaming` announces the shutdown and, when compose succeeded, its completion. */
  lemma StopStreamingMessages(w: World, id: Id, o: StreamExecOracle)
    requires id in w.projects
    ensures var r := StopStreaming(w, id, o);
            Stream.OwnLevels(Stream.Emitted(w.stream, r.world.stream)) ==
              [Stream.Default] + (if o.compose.outcome.Pass? then [Stream.Success] else [])
  {
    var r := StopStreaming(w, id, o);
    var announce := Stream.Message(Stream.Default, "Starting Docker Compose shutdown...");
    var done := Stream.Message(Stream.Success, "Docker Compose shutdown completed successfully");
    var tail := if o.compose.outcome.Pass? then [done] else [];
    assert Stream.Emitted(w.stream, r.world.stream) == [announce] + Stream.Forwarded(o.compose.lines) + (tail + [Stream.Close]);
    Stream.OwnLevelsAround([announce], o.compose.lines, tail + [Stream.Close]);
    Stream.ClosingLevels(done, o.compose.outcome.Pass?);
    Stream.OwnLevelsCons(announce, []);
    assert [announce] + [] == [announce];
  }

  /** `StartStreaming` sends nothing of its own and leaves the stream open. */
  lemma StartStreamingSilent(w: World, id: Id, o: StreamExecOracle)
    ensures var r := StartStreaming(w, id, o);
            && Stream.SendsOnly(w.stream, r.world.stream)
            && Stream.OwnLevels(Stream.Emitted(w.stream, r.world.stream)) == []
  {
    var r := StartStreaming(w, id, o);
    if id in w.projects {
      assert Stream.Emitted(w.stream, r.world.stream) == Stream.Forwarded(o.compose.lines);
      Stream.OwnLevelsForwarded(o.compose.lines);
    } else {
      assert Stream.Emitted(w.stream, r.world.stream) == [];
    }
  }

  // ---------------------------------------------------------------------------
  // Start and Stop together

  /** Stopping a project twice leaves it as stopping it once. */
  lemma StopIdempotent(w: World, id: Id, o: ExecOracle)
    requires o.compose.Pass? && o.update.Pass?
    ensures var once := Stop(w, id, o).world;
            Stop(once, id, o).world.projects == once.projects
  {
  }

  /** Start then Stop, both succeeding, leaves the project stopped and otherwise as it was. */
  lemma StartThenStop(w: World, id: Id, up: ExecOracle, down: ExecOracle)
    requires id in w.projects
    requires up.compose.Pass? && up.update.Pass? && down.compose.Pass? && down.update.Pass?
    ensures var r := Stop(Start(w, id, up).world, id, down);
            && r.outcome.Pass?
            && r.world.projects == w.projects[id := w.projects[id].(id := id, status := Status.Stopped)]
            && NewCalls(w, r.world) == [ComposeUp(id), UpdateProject(id), ComposeDown(id), UpdateProject(id)]
  {
    var s := Start(w, id, up);
    CallsChain(w, s.world, Stop(s.world, id, down).world);
  }
}

=== FILE: service.dfy ===
/** The project orchestration service of services/project.go, as pure
    transitions over the `Store.World`. Every collaborator the service calls
    (the git executor, the compose executor, the filesystem, the repository
    writes) is replaced by an oracle argument that says how that call turns
    out; the service's own sequencing, error wrapping and stream discipline
    are modelled as written. */
module ProjectService {
  import opened Outcomes
  import opened Paths
  import opened Store
  import Status
  import Stream

  /** What one run of the compose executor does: the output lines it writes
      into the stream (streaming variants only) and how it ends. */
  datatype ComposeRun = ComposeRun(lines: seq<string>, outcome: Outcome)

  /** Outcomes of the collaborators `CreateFromTempClone` calls, in call order. */
  datatype CreateOracle = CreateOracle(
    gitDir: Result<Path>,          // Project.GitDir on the record with its working dir set
    mkdir: Outcome,                // os.MkdirAll of the checkout's parent
    rename: Outcome,               // os.Rename of the prepared directory
    cleanupTemp: Outcome,          // os.RemoveAll of the prepared directory after a failed rename
    clone: Outcome,                // GitExecutor.Clone when no prepared directory is given
    commit: string,                // the value GetLatestCommit returns; its error is discarded
    create: Outcome,               // ProjectRepository.Create
    cleanupWorkingDir: Outcome)    // os.RemoveAll of the working dir after a failed Create

  /** The caller's record after the call (Go mutates it in place) and the result. */
  datatype CreateStep = CreateStep(world: World, record: Project, result: Result<Project>)

  /** Outcomes for Start and Stop: the compose run, then the repository update. */
  datatype ExecOracle = ExecOracle(compose: Outcome, update: Outcome)

  /** Outcomes for the streaming Start and Stop. */
  datatype StreamExecOracle = StreamExecOracle(compose: ComposeRun, update: Outcome)

  /** Outcomes for `DeployStreaming`, in call order. */
  datatype DeployOracle = DeployOracle(
    gitDir: Result<Path>,          // Project.GitDir
    pull: Outcome,                 // GitExecutor.Pull ("already up to date" counts as Pass)
    commit: Result<string>,        // GetLatestCommit
    deploymentID: Id,              // identity NewDeployment assigns
    commandLine: string,           // command line NewDeployment records
    up: ComposeRun,                // compose UpStreaming
    saveDeployment: Outcome,       // DeploymentRepository.Create
    saveProject: Outcome)          // ProjectRepository.Update

  /** Outcomes for `Remove`: its inner Stop, the directory removal, the delete. */
  datatype RemoveOracle = RemoveOracle(stop: ExecOracle, removeDir: Outcome, delete: Outcome)

  /** Appends the compose executor's own output to the stream. */
  function ForwardLines(w: World, lines: seq<string>): (r: World)
    ensures Stream.SendsOnly(w.stream, r.stream)
  {
    w.(stream := w.stream + Stream.Forwarded(lines))
  }

  // ---------------------------------------------------------------------------
  // Create

  /** The checkout can be put in place: the clone succeeds, or the prepared
      directory exists and both MkdirAll and Rename succeed. */
  predicate CheckoutPlaced(w: World, tempClonePath: Path, o: CreateOracle)
  {
    if tempClonePath == "" then o.clone.Pass?
    else tempClonePath in w.dirs && o.mkdir.Pass? && o.rename.Pass?
  }

  /** Puts the checkout in place: relocates the prepared directory when one is
      given, clones otherwise (services/project.go:126-185). */
  function PlaceCheckout(w: World, p: Project, gitDir: Path, tempClonePath: Path, o: CreateOracle): (r: Step)
    ensures r.world.projects == w.projects && r.world.deployments == w.deployments
    ensures r.world.stream == w.stream
    ensures CallsExtend(w, r.world)
    ensures r.outcome.Pass? ==> gitDir in r.world.dirs
    ensures r.outcome.Pass? <==> CheckoutPlaced(w, tempClonePath, o)
    ensures forall c :: c in NewCalls(w, r.world) ==> !c.CreateProject?
    ensures tempClonePath != "" && r.outcome.Pass? && !Within(tempClonePath, gitDir) ==>
              tempClonePath !in r.world.dirs
    // only the prepared tree can go, and only the checkout's parent and tree can appear
    ensures forall q :: q in w.dirs && (tempClonePath == "" || !Within(q, tempClonePath)) ==> q in r.world.dirs
    ensures forall q :: q in r.world.dirs && q !in w.dirs ==> q == Parent(gitDir) || Within(q, gitDir)
    ensures tempClonePath == "" ==> r.world.dirs <= w.dirs + {gitDir}
  {
    if tempClonePath != "" then Relocate(w, gitDir, tempClonePath, o)
    else
      var w1 := Log(w, Clone(p.gitURL, gitDir));
      if o.clone.Fail? then Step(w1, o.clone)
      else Step(w1.(dirs := w1.dirs + {gitDir}), Pass)
  }

  /** Moves a prepared directory to the checkout's place (services/project.go:128-167):
      it must exist, the parent is created, and a failed rename removes it. */
  function Relocate(w: World, gitDir: Path, tempClonePath: Path, o: CreateOracle): (r: Step)
    requires tempClonePath != ""
    ensures r.world.projects == w.projects && r.world.deployments == w.deployments
    ensures r.world.stream == w.stream
    ensures CallsExtend(w, r.world)
    ensures tempClonePath !in w.dirs ==> r == Step(w, Fail(NotExist(tempClonePath)))
    ensures tempClonePath in w.dirs && o.mkdir.Fail? ==> NewCalls(w, r.world) == [MkdirAll(Parent(gitDir))]
    ensures tempClonePath in w.dirs && o.mkdir.Pass? && o.rename.Fail? ==>
              && NewCalls(w, r.world) == [MkdirAll(Parent(gitDir)), Move(tempClonePath, gitDir), RemoveAll(tempClonePath)]
              && r.outcome == o.rename
              && (o.cleanupTemp.Pass? ==> forall q :: q in r.world.dirs ==> !Within(q, tempClonePath))
    ensures r.outcome.Pass? <==> tempClonePath in w.dirs && o.mkdir.Pass? && o.rename.Pass?
    ensures r.outcome.Pass? ==>
              && NewCalls(w, r.world) == [MkdirAll(Parent(gitDir)), Move(tempClonePath, gitDir)]
              && gitDir in r.world.dirs
              && (!Within(tempClonePath, gitDir) ==> tempClonePath !in r.world.dirs)
    // only the prepared tree can go, and only the checkout's parent and tree can appear
    ensures forall q :: q in w.dirs && !Within(q, tempClonePath) ==> q in r.world.dirs
    ensures forall q :: q in r.world.dirs && q !in w.dirs ==> q == Parent(gitDir) || Within(q, gitDir)
  {
    if tempClonePath !in w.dirs then Step(w, Fail(NotExist(tempClonePath)))
    else
      var w1 := Log(w, MkdirAll(Parent(gitDir)));
      if o.mkdir.Fail? then Step(w1, o.mkdir)
      else
        var w2 := Log(w1.(dirs := MakeDirs(w1.dirs, Parent(gitDir))), Move(tempClonePath, gitDir));
        if o.rename.Fail? then
          var cleaned := RemoveDir(w2, tempClonePath, o.cleanupTemp);
          Step(cleaned.world, o.rename)
        else Step(w2.(dirs := Rename(w2.dirs, tempClonePath, gitDir)), Pass)
  }

  /** `CreateFromTempClone` (services/project.go:109-219). */
  function CreateFromTempClone(w: World, workspace: Path, project: Project, tempClonePath: Path, o: CreateOracle)
    : (r: CreateStep)
    // the working directory is always overwritten, whatever happens next
    ensures r.record.workingDir == Join(workspace, project.id)
    ensures r.record == project.(workingDir := r.record.workingDir, lastCommit := r.record.lastCommit)
    ensures r.world.deployments == w.deployments && r.world.stream == w.stream
    ensures CallsExtend(w, r.world)
    // a failure leaves no record behind
    ensures r.result.Err? ==> r.world.projects == w.projects
    // success: the record is stored, the commit is taken, the checkout exists
    ensures r.result.Ok? ==> r.result.value == r.record && project.id !in w.projects
    ensures r.result.Ok? ==> r.world.projects == w.projects[project.id := r.record]
    ensures r.result.Ok? ==> r.record.lastCommit == Some(o.commit) && o.gitDir.Ok? && o.gitDir.value in r.world.dirs
    ensures r.result.Ok? && o.gitDir.Ok? && tempClonePath != "" && !Within(tempClonePath, o.gitDir.value) ==>
              tempClonePath !in r.world.dirs
    // the repository is asked only once the checkout is in place
    ensures CreateProject(project.id) in NewCalls(w, r.world) ==>
              && o.gitDir.Ok?
              && CheckoutPlaced(w, tempClonePath, o)
    // a prepared directory that does not exist stops everything
    ensures o.gitDir.Ok? && tempClonePath != "" && tempClonePath !in w.dirs ==>
              r.world == w && r.result == Err(NotExist(tempClonePath))
    // a failed relocation removes the prepared directory and returns the rename error
    ensures o.gitDir.Ok? && tempClonePath != "" && tempClonePath in w.dirs && o.mkdir.Pass? && o.rename.Fail? ==>
              && r.result == Err(o.rename.error)
              && NewCalls(w, r.world) ==
                 [MkdirAll(Parent(o.gitDir.value)), Move(tempClonePath, o.gitDir.value), RemoveAll(tempClonePath)]
              && (o.cleanupTemp.Pass? ==> forall q :: q in r.world.dirs ==> !Within(q, tempClonePath))
    // a failed repository create removes the working directory and returns the create error
    ensures CreateProject(project.id) in NewCalls(w, r.world) && r.result.Err? ==>
              && NewCalls(w, r.world)[|NewCalls(w, r.world)| - 1] == RemoveAll(Join(workspace, project.id))
              && (o.cleanupWorkingDir.Pass? ==>
                    forall q :: q in r.world.dirs ==> !Within(q, Join(workspace, project.id)))
    ensures CreateProject(project.id) in NewCalls(w, r.world) && r.result.Err? &&
            project.id !in w.projects && (forall k :: k in w.projects ==> w.projects[k].name != project.name) ==>
              o.create.Fail? && r.result == Err(o.create.error)
    // other checkouts survive, and only the new checkout's parent and tree appear
    ensures forall q ::
              q in w.dirs && (tempClonePath == "" || !Within(q, tempClonePath)) && !Within(q, Join(workspace, project.id))
              ==> q in r.world.dirs
    ensures forall q :: q in r.world.dirs && q !in w.dirs ==>
              o.gitDir.Ok? && (q == Parent(o.gitDir.value) || Within(q, o.gitDir.value))
    ensures tempClonePath == "" ==> r.world.dirs <= w.dirs + (if o.gitDir.Ok? then {o.gitDir.value} else {})
    // and conversely: once the checkout is in place the repository is always asked,
    // and creation succeeds exactly when every collaborator and the schema allow it
    ensures CreateProject(project.id) in NewCalls(w, r.world) <==>
              && o.gitDir.Ok?
              && CheckoutPlaced(w, tempClonePath, o)
    ensures r.result.Ok? <==>
              && o.gitDir.Ok?
              && CheckoutPlaced(w, tempClonePath, o)
              && project.id !in w.projects
              && (forall k :: k in w.projects ==> w.projects[k].name != project.name)
              && o.create.Pass?
  {
    var p := project.(workingDir := Join(workspace, project.id));
    match o.gitDir
    case Err(e) => CreateStep(w, p, Err(e))
    case Ok(gitDir) => CreateIn(w, p, gitDir, tempClonePath, o)
  }

  /** `CreateFromTempClone` once the git directory is known (services/project.go:126-218):
      the checkout is placed, then the record is stored with the latest commit. */
  function CreateIn(w: World, p: Project, gitDir: Path, tempClonePath: Path, o: CreateOracle): (r: CreateStep)
    ensures r.record == p.(lastCommit := r.record.lastCommit)
    ensures r.world.deployments == w.deployments && r.world.stream == w.stream
    ensures CallsExtend(w, r.world)
    ensures tempClonePath == "" ==> |NewCalls(w, r.world)| >= 1 && NewCalls(w, r.world)[0] == Clone(p.gitURL, gitDir)
    ensures r.result.Err? ==> r.world.projects == w.projects
    ensures r.result.Ok? ==>
              && r.result.value == r.record && r.record.lastCommit == Some(o.commit)
              && p.id !in w.projects && r.world.projects == w.projects[p.id := r.record]
              && gitDir in r.world.dirs
    ensures r.result.Ok? && tempClonePath != "" && !Within(tempClonePath, gitDir) ==> tempClonePath !in r.world.dirs
    ensures CreateProject(p.id) in NewCalls(w, r.world) <==> CheckoutPlaced(w, tempClonePath, o)
    ensures tempClonePath != "" && tempClonePath !in w.dirs ==>
              r.world == w && r.result == Err(NotExist(tempClonePath))
    ensures tempClonePath != "" && tempClonePath in w.dirs && o.mkdir.Pass? && o.rename.Fail? ==>
              && r.result == Err(o.rename.error)
              && NewCalls(w, r.world) == [MkdirAll(Parent(gitDir)), Move(tempClonePath, gitDir), RemoveAll(tempClonePath)]
              && (o.cleanupTemp.Pass? ==> forall q :: q in r.world.dirs ==> !Within(q, tempClonePath))
    ensures CreateProject(p.id) in NewCalls(w, r.world) && r.result.Err? ==>
              && NewCalls(w, r.world)[|NewCalls(w, r.world)| - 1] == RemoveAll(p.workingDir)
              && (o.cleanupWorkingDir.Pass? ==> forall q :: q in r.world.dirs ==> !Within(q, p.workingDir))
    ensures CreateProject(p.id) in NewCalls(w, r.world) && r.result.Err? &&
            p.id !in w.projects && (forall k :: k in w.projects ==> w.projects[k].name != p.name) ==>
              o.create.Fail? && r.result == Err(o.create.error)
    ensures forall q ::
              q in w.dirs && (tempClonePath == "" || !Within(q, tempClonePath)) && !Within(q, p.workingDir)
              ==> q in r.world.dirs
    ensures forall q :: q in r.world.dirs && q !in w.dirs ==> q == Parent(gitDir) || Within(q, gitDir)
    ensures tempClonePath == "" ==> r.world.dirs <= w.dirs + {gitDir}
    ensures r.result.Ok? <==>
              && CheckoutPlaced(w, tempClonePath, o)
              && p.id !in w.projects
              && (forall k :: k in w.projects ==> w.projects[k].name != p.name)
              && o.create.Pass?
  {
    var placed := PlaceCheckout(w, p, gitDir, tempClonePath, o);
    if placed.outcome.Fail? then CreateStep(placed.world, p, Err(placed.outcome.error))
    else
      var p2 := p.(lastCommit := Some(o.commit));
      var stored := RegisterCheckout(placed.world, p2, o);
      CallsChain(w, placed.world, stored.world);
      CreateStep(stored.world, p2, if stored.outcome.Pass? then Ok(p2) else Err(stored.outcome.error))
  }

  /** Stores the record of a checkout that is in place, and removes the working
      directory again when the repository refuses it (services/project.go:196-216). */
  function RegisterCheckout(w: World, p: Project, o: CreateOracle): (r: Step)
    ensures CallsExtend(w, r.world)
    ensures r.world.deployments == w.deployments && r.world.stream == w.stream
    ensures r.outcome.Pass? <==>
              && p.id !in w.projects
              && (forall k :: k in w.projects ==> w.projects[k].name != p.name)
              && o.create.Pass?
    ensures r.outcome.Pass? ==>
              && NewCalls(w, r.world) == [CreateProject(p.id)]
              && r.world.projects == w.projects[p.id := p] && r.world.dirs == w.dirs
    ensures r.outcome.Fail? ==>
              && NewCalls(w, r.world) == [CreateProject(p.id), RemoveAll(p.workingDir)]
              && r.world.projects == w.projects
              && (o.cleanupWorkingDir.Pass? ==> forall q :: q in r.world.dirs ==> !Within(q, p.workingDir))
              && r.world.dirs == (if o.cleanupWorkingDir.Pass? then RemoveTree(w.dirs, p.workingDir) else w.dirs)
    ensures r.outcome.Fail? && p.id !in w.projects && (forall k :: k in w.projects ==> w.projects[k].name != p.name) ==>
              r.outcome == o.create
    // nothing appears, and only the working directory's tree can go
    ensures r.world.dirs <= w.dirs
    ensures forall q :: q in w.dirs && !Within(q, p.workingDir) ==> q in r.world.dirs
  {
    var created := CreateProjectRow(w, p, o.create);
    if created.outcome.Fail? then
      var cleaned := RemoveDir(created.world, p.workingDir, o.cleanupWorkingDir);
      Step(cleaned.world, created.outcome)
    else created
  }

  /** `Create`: creation with no prepared directory, so the repository is cloned (services/project.go:104-106). */
  function Create(w: World, workspace: Path, project: Project, o: CreateOracle): (r: CreateStep)
    ensures CallsExtend(w, r.world)
    ensures r.record.workingDir == Join(workspace, project.id)
    ensures o.gitDir.Ok? ==> |NewCalls(w, r.world)| >= 1 && NewCalls(w, r.world)[0] == Clone(project.gitURL, o.gitDir.value)
    ensures o.clone.Fail? ==> r.world.projects == w.projects && r.result.Err?
    ensures r.result.Ok? ==> o.clone.Pass? && r.world.projects == w.projects[project.id := r.record]
    ensures r.result.Ok? <==>
              && o.gitDir.Ok? && o.clone.Pass?
              && project.id !in w.projects
              && (forall k :: k in w.projects ==> w.projects[k].name != project.name)
              && o.create.Pass?
    // only the working directory's tree can go, and only the checkout can appear
    ensures forall q :: q in w.dirs && !Within(q, Join(workspace, project.id)) ==> q in r.world.dirs
    ensures forall q :: q in r.world.dirs && q !in w.dirs ==> o.gitDir.Ok? && q == o.gitDir.value
  {
    CreateFromTempClone(w, workspace, project, "", o)
  }

  // ---------------------------------------------------------------------------
  // Start and Stop

  /** `Start` (services/project.go:314-355). */
  function Start(w: World, id: Id, o: ExecOracle): (r: Step)
    ensures CallsExtend(w, r.world)
    ensures r.world.deployments == w.deployments && r.world.dirs == w.dirs && r.world.stream == w.stream
    ensures id !in w.projects ==> r == Step(w, Fail(Wrapped("project not found", RecordNotFound)))
    ensures id in w.projects && o.compose.Fail? ==>
              && NewCalls(w, r.world) == [ComposeUp(id)]
              && r.outcome == Fail(Wrapped("failed to start project", o.compose.error))
    ensures id in w.projects && o.compose.Pass? ==>
              NewCalls(w, r.world) == [ComposeUp(id), UpdateProject(id)] && r.outcome == o.update
    ensures r.outcome.Pass? <==> id in w.projects && o.compose.Pass? && o.update.Pass?
    ensures r.outcome.Pass? ==> r.world.projects == w.projects[id := w.projects[id].(id := id, status := Status.Running)]
    ensures r.outcome.Fail? ==> r.world.projects == w.projects
  {
    match FindByID(w, id)
    case Err(e) => Step(w, Fail(Wrapped("project not found", e)))
    case Ok(p) =>
      var w1 := Log(w, ComposeUp(id));
      if o.compose.Fail? then Step(w1, Fail(Wrapped("failed to start project", o.compose.error)))
      else UpdateProjectRow(w1, p.(status := Status.Running), o.update)
  }

  /** `Stop` (services/project.go:396-437). */
  function Stop(w: World, id: Id, o: ExecOracle): (r: Step)
    ensures CallsExtend(w, r.world)
    ensures r.world.deployments == w.deployments && r.world.dirs == w.dirs && r.world.stream == w.stream
    ensures id !in w.projects ==> r == Step(w, Fail(Wrapped("project not found", RecordNotFound)))
    ensures id in w.projects && o.compose.Fail? ==>
              && NewCalls(w, r.world) == [ComposeDown(id)]
              && r.outcome == Fail(Wrapped("failed to stop project", o.compose.error))
    ensures id in w.projects && o.compose.Pass? ==>
              NewCalls(w, r.world) == [ComposeDown(id), UpdateProject(id)] && r.outcome == o.update
    ensures r.outcome.Pass? <==> id in w.projects && o.compose.Pass? && o.update.Pass?
    ensures r.outcome.Pass? ==> r.world.projects == w.projects[id := w.projects[id].(id := id, status := Status.Stopped)]
    ensures r.outcome.Fail? ==> r.world.projects == w.projects
  {
    match FindByID(w, id)
    case Err(e) => Step(w, Fail(Wrapped("project not found", e)))
    case Ok(p) =>
      var w1 := Log(w, ComposeDown(id));
      if o.compose.Fail? then Step(w1, Fail(Wrapped("failed to stop project", o.compose.error)))
      else UpdateProjectRow(w1, p.(status := Status.Stopped), o.update)
  }

  /** `StartStreaming` (services/project.go:357-394): forwards the compose output
      but neither tags messages of its own nor closes the stream. */
  function StartStreaming(w: World, id: Id, o: StreamExecOracle): (r: Step)
    ensures CallsExtend(w, r.world)
    ensures r.world.deployments == w.deployments && r.world.dirs == w.dirs
    ensures Stream.SendsOnly(w.stream, r.world.stream)
    ensures forall i :: |w.stream| <= i < |r.world.stream| ==> r.world.stream[i].Forward?
    ensures id !in w.projects ==> r == Step(w, Fail(Wrapped("project not found", RecordNotFound)))
    ensures r.outcome.Pass? <==> id in w.projects && o.compose.outcome.Pass? && o.update.Pass?
    ensures r.outcome.Pass? ==> r.world.projects == w.projects[id := w.projects[id].(id := id, status := Status.Running)]
    ensures r.outcome.Fail? ==> r.world.projects == w.projects
    ensures UpdateProject(id) in NewCalls(w, r.world) ==> o.compose.outcome.Pass?
    // compose up is called, and what reaches the stream is exactly its output
    ensures id in w.projects ==>
              && NewCalls(w, r.world) == [ComposeUp(id)] + (if o.compose.outcome.Pass? then [UpdateProject(id)] else [])
              && Stream.Emitted(w.stream, r.world.stream) == Stream.Forwarded(o.compose.lines)
    ensures id in w.projects && o.compose.outcome.Fail? ==>
              r.outcome == Fail(Wrapped("failed to start project", o.compose.outcome.error))
  {
    match FindByID(w, id)
    case Err(e) => Step(w, Fail(Wrapped("project not found", e)))
    case Ok(p) =>
      var w1 := ForwardLines(Log(w, ComposeUp(id)), o.compose.lines);
      if o.compose.outcome.Fail? then Step(w1, Fail(Wrapped("failed to start project", o.compose.outcome.error)))
      else UpdateProjectRow(w1, p.(status := Status.Running), o.update)
  }

  /** `StopStreaming` (services/project.go:439-481). */
  function StopStreaming(w: World, id: Id, o: StreamExecOracle): (r: Step)
    ensures CallsExtend(w, r.world)
    ensures r.world.deployments == w.deployments && r.world.dirs == w.dirs
    ensures Stream.ClosedOnce(w.stream, r.world.stream)
    ensures id !in w.projects ==>
              r == Step(CloseStream(w), Fail(Wrapped("project not found", RecordNotFound)))
    ensures r.outcome.Pass? <==> id in w.projects && o.compose.outcome.Pass? && o.update.Pass?
    ensures r.outcome.Pass? ==> r.world.projects == w.projects[id := w.projects[id].(id := id, status := Status.Stopped)]
    ensures r.outcome.Fail? ==> r.world.projects == w.projects
    ensures UpdateProject(id) in NewCalls(w, r.world) ==> o.compose.outcome.Pass?
    // compose down is called; its output is forwarded between the announcement and
    // the success message, and the stream is closed
    ensures id in w.projects ==>
              && NewCalls(w, r.world) == [ComposeDown(id)] + (if o.compose.outcome.Pass? then [UpdateProject(id)] else [])
              && Stream.Emitted(w.stream, r.world.stream) ==
                 [Stream.Message(Stream.Default, "Starting Docker Compose shutdown...")]
                 + Stream.Forwarded(o.compose.lines)
                 + (if o.compose.outcome.Pass?
                    then [Stream.Message(Stream.Success, "Docker Compose shutdown completed successfully")]
                    else [])
                 + [Stream.Close]
    ensures id in w.projects && o.compose.outcome.Fail? ==>
              r.outcome == Fail(Wrapped("failed to stop project", o.compose.outcome.error))
  {
    match FindByID(w, id)
    case Err(e) => Step(CloseStream(w), Fail(Wrapped("project not found", e)))
    case Ok(p) => Shutdown(w, p, o)
  }

  /** `StopStreaming` once the project is found (services/project.go:459-480): the
      announcement, compose down with its output forwarded, and on success the
      success message and the update; the deferred close ends every path. */
  function Shutdown(w: World, p: Project, o: StreamExecOracle): (r: Step)
    ensures CallsExtend(w, r.world)
    ensures r.world.deployments == w.deployments && r.world.dirs == w.dirs
    ensures Stream.ClosedOnce(w.stream, r.world.stream)
    ensures NewCalls(w, r.world) == [ComposeDown(p.id)] + (if o.compose.outcome.Pass? then [UpdateProject(p.id)] else [])
    ensures Stream.Emitted(w.stream, r.world.stream) ==
              [Stream.Message(Stream.Default, "Starting Docker Compose shutdown...")]
              + Stream.Forwarded(o.compose.lines)
              + (if o.compose.outcome.Pass?
                 then [ShutdownDone]
                 else [])
              + [Stream.Close]
    ensures o.compose.outcome.Fail? ==>
              r.outcome == Fail(Wrapped("failed to stop project", o.compose.outcome.error))
    ensures o.compose.outcome.Pass? ==> r.outcome == o.update
    ensures r.outcome.Pass? && p.id in w.projects ==>
              r.world.projects == w.projects[p.id := p.(status := Status.Stopped)]
    ensures r.outcome.Fail? ==> r.world.projects == w.projects
  {
    var down := ComposeDownPhase(w, p.id, o.compose);
    var last := if o.compose.outcome.Pass? then [ShutdownDone] else [];
    var r :=
      if o.compose.outcome.Fail? then
        Stream.CloseAfterSends(w.stream, down.stream);
        Step(CloseStream(down), Fail(Wrapped("failed to stop project", o.compose.outcome.error)))
      else
        (var finished := MarkStopped(down, p, o.update);
         CallsChain(w, down, finished.world);
         Stream.SendsThenClosedOnce(w.stream, down.stream, finished.world.stream);
         finished);
    Stream.EmittedAppend(down.stream, last + [Stream.Close]);
    Stream.EmittedChain(w.stream, down.stream, r.world.stream);
    Stream.AppendAssoc(Stream.Emitted(w.stream, down.stream), last, [Stream.Close]);
    r
  }

  /** The announcement and compose down with its output forwarded (services/project.go:459-460). */
  function ComposeDownPhase(w: World, id: Id, run: ComposeRun): (r: World)
    ensures r.projects == w.projects && r.deployments == w.deployments && r.dirs == w.dirs
    ensures CallsExtend(w, r) && NewCalls(w, r) == [ComposeDown(id)]
    ensures Stream.SendsOnly(w.stream, r.stream)
    ensures Stream.Emitted(w.stream, r.stream) ==
              [Stream.Message(Stream.Default, "Starting Docker Compose shutdown...")] + Stream.Forwarded(run.lines)
  {
    var w1 := Emit(w, Stream.Default, "Starting Docker Compose shutdown...");
    var w2 := ForwardLines(Log(w1, ComposeDown(id)), run.lines);
    Stream.SendsOnlyTrans(w.stream, w1.stream, w2.stream);
    Stream.EmittedAppend(w.stream, [Stream.Message(Stream.Default, "Starting Docker Compose shutdown...")]);
    Stream.EmittedAppend(w1.stream, Stream.Forwarded(run.lines));
    Stream.EmittedChain(w.stream, w1.stream, w2.stream);
    w2
  }

  /** The success message of a completed shutdown. */
  const ShutdownDone := Stream.Message(Stream.Success, "Docker Compose shutdown completed successfully")

  /** The end of a successful shutdown (services/project.go:477-480): the success
      message, the status update, and the deferred close. */
  function MarkStopped(w: World, p: Project, update: Outcome): (r: Step)
    ensures r.world.calls == w.calls + [UpdateProject(p.id)]
    ensures r.world.deployments == w.deployments && r.world.dirs == w.dirs
    ensures r.world.stream == w.stream + ([ShutdownDone] + [Stream.Close])
    ensures Stream.ClosedOnce(w.stream, r.world.stream)
    ensures r.outcome == update
    ensures r.outcome.Pass? && p.id in w.projects ==>
              r.world.projects == w.projects[p.id := p.(status := Status.Stopped)]
    ensures r.outcome.Fail? ==> r.world.projects == w.projects
  {
    var updated := UpdateProjectRow(w.(stream := w.stream + [ShutdownDone]), p.(status := Status.Stopped), update);
    Stream.CloseAfterSends(w.stream, updated.world.stream);
    Step(CloseStream(updated.world), updated.outcome)
  }

  // ---------------------------------------------------------------------------
  // Deploy

  /** `pullLatestChanges` (services/project.go:557-572). */
  function PullLatestChanges(w: World, gitDir: Result<Path>, pull: Outcome): (r: Step)
    ensures CallsExtend(w, r.world)
    ensures r.world == w.(calls := r.world.calls)
    ensures gitDir.Err? ==> r == Step(w, Fail(Wrapped("failed to get git directory", gitDir.error)))
    ensures gitDir.Ok? ==> NewCalls(w, r.world) == [Pull(gitDir.value)]
    ensures r.outcome.Pass? <==> gitDir.Ok? && pull.Pass?
    ensures gitDir.Ok? && pull.Fail? ==> r.outcome == Fail(Wrapped("failed to pull changes", pull.error))
  {
    match gitDir
    case Err(e) => Step(w, Fail(Wrapped("failed to get git directory", e)))
    case Ok(dir) =>
      var w1 := Log(w, Pull(dir));
      if pull.Fail? then Step(w1, Fail(Wrapped("failed to pull changes", pull.error))) else Step(w1, Pass)
  }

  /** The successful deployment record and project row `DeployStreaming` writes. */
  function DeployedRecord(id: Id, hash: string, o: DeployOracle): Deployment
  {
    NewDeployment(o.deploymentID, id, hash, o.commandLine).(status := Completed)
  }

  /** The deployment row can be written: its id is fresh and the store accepts it. */
  predicate DeploymentSaved(w: World, o: DeployOracle)
  {
    o.deploymentID !in w.deployments && o.saveDeployment.Pass?
  }

  /** Everything `DeployStreaming` asks of its collaborators goes right. */
  predicate DeploySucceeds(w: World, id: Id, pull: bool, o: DeployOracle)
  {
    && id in w.projects
    && o.gitDir.Ok?
    && (pull ==> o.pull.Pass?)
    && o.commit.Ok?
    && o.up.outcome.Pass?
    && DeploymentSaved(w, o)
    && o.saveProject.Pass?
  }

  /** `DeployStreaming` (services/project.go:225-312). */
  function DeployStreaming(w: World, id: Id, pull: bool, o: DeployOracle): (r: Step)
    ensures CallsExtend(w, r.world)
    ensures r.world.dirs == w.dirs
    ensures Stream.ClosedOnce(w.stream, r.world.stream)
    ensures id !in w.projects ==>
              r == Step(CloseStream(w), Fail(Wrapped("project not found", RecordNotFound)))
    // nothing is persisted unless pull, commit lookup and compose up all succeeded
    ensures !(id in w.projects && o.gitDir.Ok? && (pull ==> o.pull.Pass?) && o.commit.Ok? && o.up.outcome.Pass?) ==>
              r.world.projects == w.projects && r.world.deployments == w.deployments
    // the project row changes only once the deployment row has been written ...
    ensures !DeploymentSaved(w, o) ==> r.world.projects == w.projects
    ensures r.world.deployments == w.deployments ||
            (o.commit.Ok? && r.world.deployments == w.deployments[o.deploymentID := DeployedRecord(id, o.commit.value, o)])
    ensures id in w.projects && o.gitDir.Err? ==> r.outcome == Fail(Wrapped("failed to get git directory", o.gitDir.error))
  {
    match FindByID(w, id)
    case Err(e) =>
      Stream.CloseAfterSends(w.stream, w.stream);
      Step(CloseStream(w), Fail(Wrapped("project not found", e)))
    case Ok(p) =>
      Stream.CloseAfterSends(w.stream, w.stream);
      if o.gitDir.Err? then Step(CloseStream(w), Fail(Wrapped("failed to get git directory", o.gitDir.error)))
      else
        var pulled := PullPhase(w, pull, o);
        if pulled.outcome.Fail? then
          Stream.CloseAfterSends(w.stream, pulled.world.stream);
          Step(CloseStream(pulled.world), pulled.outcome)
        else
          var r := DeployFromCommit(pulled.world, p, o);
          Stream.SendsThenClosedOnce(w.stream, pulled.world.stream, r.world.stream);
          CallsChain(w, pulled.world, r.world);
          r
  }

  /** The optional pull at the start of `DeployStreaming` (services/project.go:244-251):
      announce, pull, then report success or the error. The stream stays open. */
  function PullPhase(w: World, pull: bool, o: DeployOracle): (r: Step)
    requires o.gitDir.Ok?
    ensures CallsExtend(w, r.world)
    ensures r.world.projects == w.projects && r.world.deployments == w.deployments && r.world.dirs == w.dirs
    ensures Stream.SendsOnly(w.stream, r.world.stream)
    ensures !pull ==> r == Step(w, Pass)
    ensures r.outcome.Pass? <==> !pull || o.pull.Pass?
    ensures pull ==> NewCalls(w, r.world) == [Pull(o.gitDir.value)]
    ensures pull && o.pull.Pass? ==>
              Stream.Emitted(w.stream, r.world.stream) ==
              [Stream.Message(Stream.Default, "Pulling latest changes from Git..."),
               Stream.Message(Stream.Success, "Git pull completed successfully")]
    ensures pull && o.pull.Fail? ==>
              && r.outcome == Fail(Wrapped("failed to pull changes", o.pull.error))
              && Stream.Emitted(w.stream, r.world.stream) ==
                 [Stream.Message(Stream.Default, "Pulling latest changes from Git..."),
                  Stream.Message(Stream.Error, "Failed to pull latest changes: " + Text(r.outcome.error))]
  {
    if !pull then Step(w, Pass)
    else
      var w1 := Emit(w, Stream.Default, "Pulling latest changes from Git...");
      var pulled := PullLatestChanges(w1, o.gitDir, o.pull);
      if pulled.outcome.Fail? then
        Step(Emit(pulled.world, Stream.Error, "Failed to pull latest changes: " + Text(pulled.outcome.error)), pulled.outcome)
      else Step(Emit(pulled.world, Stream.Success, "Git pull completed successfully"), Pass)
  }

  /** The part of `DeployStreaming` after the optional pull (services/project.go:253-311). */
  function DeployFromCommit(w: World, p: Project, o: DeployOracle): (r: Step)
    requires p.id in w.projects
    ensures CallsExtend(w, r.world)
    ensures r.world.dirs == w.dirs
    ensures Stream.ClosedOnce(w.stream, r.world.stream)
    ensures !(o.commit.Ok? && o.up.outcome.Pass?) ==>
              r.world.projects == w.projects && r.world.deployments == w.deployments
    ensures !(o.commit.Ok? && o.up.outcome.Pass?) ==> NewCalls(w, r.world) == (if o.commit.Ok? then [ComposeUp(p.id)] else [])
    ensures o.commit.Ok? && o.up.outcome.Pass? ==>
              NewCalls(w, r.world) == [ComposeUp(p.id)] + PersistCalls(w, p, o)
    ensures !DeploymentSaved(w, o) ==> r.world.projects == w.projects
    ensures r.world.deployments == w.deployments ||
            (o.commit.Ok? && r.world.deployments == w.deployments[o.deploymentID := DeployedRecord(p.id, o.commit.value, o)])
    ensures r.outcome.Pass? <==> o.commit.Ok? && o.up.outcome.Pass? && DeploymentSaved(w, o) && o.saveProject.Pass?
    ensures r.outcome.Pass? ==>
              r.world.projects == w.projects[p.id := p.(status := Status.Running, lastCommit := Some(o.commit.value))]
    // a failed commit lookup returns the git error as it is; a compose failure is wrapped
    ensures o.commit.Err? ==> r.outcome == Fail(o.commit.error)
    ensures o.commit.Ok? && o.up.outcome.Fail? ==> r.outcome == Fail(Wrapped("failed to start project", o.up.outcome.error))
    ensures o.commit.Ok? && o.up.outcome.Pass? && o.deploymentID !in w.deployments && o.saveDeployment.Fail? ==>
              r.outcome == Fail(Wrapped("failed to update deployment record", o.saveDeployment.error))
    ensures o.commit.Ok? && o.up.outcome.Pass? && DeploymentSaved(w, o) && o.saveProject.Fail? ==>
              r.outcome == Fail(Wrapped("failed to update project status", o.saveProject.error))
  {
    match o.commit
    case Err(e) =>
      Stream.CloseAfterSends(w.stream, w.stream);
      Step(CloseStream(w), Fail(e))
    case Ok(hash) =>
      var up := ComposeUpPhase(w, p.id, o.up);
      Stream.CloseAfterSends(w.stream, up.world.stream);
      if up.outcome.Fail? then Step(CloseStream(up.world), up.outcome)
      else
        var r := Persist(up.world, p, hash, o);
        CallsChain(w, up.world, r.world);
        r
  }

  /** The compose run of `DeployStreaming` (services/project.go:272-292): announce,
      forward the executor's output, announce success. The stream stays open. */
  function ComposeUpPhase(w: World, id: Id, up: ComposeRun): (r: Step)
    ensures r.world.projects == w.projects && r.world.deployments == w.deployments && r.world.dirs == w.dirs
    ensures CallsExtend(w, r.world) && NewCalls(w, r.world) == [ComposeUp(id)]
    ensures Stream.SendsOnly(w.stream, r.world.stream)
    ensures up.outcome.Fail? ==> r.outcome == Fail(Wrapped("failed to start project", up.outcome.error))
    ensures up.outcome.Pass? ==> r.outcome == Pass
    ensures Stream.Emitted(w.stream, r.world.stream) ==
              [Stream.Message(Stream.Default, "Starting Docker Compose deployment...")] + Stream.Forwarded(up.lines) +
              (if up.outcome.Pass? then [Stream.Message(Stream.Success, "Docker Compose deployment completed successfully")] else [])
  {
    var w1 := Emit(w, Stream.Default, "Starting Docker Compose deployment...");
    var w2 := ForwardLines(Log(w1, ComposeUp(id)), up.lines);
    Stream.SendsOnlyTrans(w.stream, w1.stream, w2.stream);
    if up.outcome.Fail? then
      Step(w2, Fail(Wrapped("failed to start project", up.outcome.error)))
    else
      var w3 := Emit(w2, Stream.Success, "Docker Compose deployment completed successfully");
      Stream.SendsOnlyTrans(w.stream, w2.stream, w3.stream);
      Step(w3, Pass)
  }

  /** The writes `Persist` makes: the deployment, then the project if the deployment was written. */
  function PersistCalls(w: World, p: Project, o: DeployOracle): seq<Call>
  {
    if DeploymentSaved(w, o) then [CreateDeployment(o.deploymentID), UpdateProject(p.id)]
    else [CreateDeployment(o.deploymentID)]
  }

  /** The two independent writes that end a successful deployment, deployment
      first and project second, then the close (services/project.go:294-311). */
  function Persist(w: World, p: Project, hash: string, o: DeployOracle): (r: Step)
    requires p.id in w.projects
    ensures CallsExtend(w, r.world)
    ensures r.world.dirs == w.dirs
    ensures r.world.stream == CloseStream(w).stream
    ensures NewCalls(w, r.world) == PersistCalls(w, p, o)
    ensures r.world.deployments ==
              if DeploymentSaved(w, o) then w.deployments[o.deploymentID := DeployedRecord(p.id, hash, o)]
              else w.deployments
    ensures r.world.projects ==
              if DeploymentSaved(w, o) && o.saveProject.Pass?
              then w.projects[p.id := p.(status := Status.Running, lastCommit := Some(hash))]
              else w.projects
    ensures r.outcome.Pass? <==> DeploymentSaved(w, o) && o.saveProject.Pass?
    // each refused write comes back wrapped with its own context
    ensures !DeploymentSaved(w, o) ==>
              r.outcome.Fail? && r.outcome.error.Wrapped? && r.outcome.error.context == "failed to update deployment record"
    ensures o.deploymentID !in w.deployments && o.saveDeployment.Fail? ==>
              r.outcome == Fail(Wrapped("failed to update deployment record", o.saveDeployment.error))
    ensures DeploymentSaved(w, o) && o.saveProject.Fail? ==>
              r.outcome == Fail(Wrapped("failed to update project status", o.saveProject.error))
  {
    var saved := CreateDeploymentRow(w, DeployedRecord(p.id, hash, o), o.saveDeployment);
    if saved.outcome.Fail? then
      Step(CloseStream(saved.world), Fail(Wrapped("failed to update deployment record", saved.outcome.error)))
    else
      var updated := UpdateProjectRow(saved.world, p.(status := Status.Running, lastCommit := Some(hash)), o.saveProject);
      if updated.outcome.Fail? then
        Step(CloseStream(updated.world), Fail(Wrapped("failed to update project status", updated.outcome.error)))
      else Step(CloseStream(updated.world), Pass)
  }

  // ---------------------------------------------------------------------------
  // Logs and removal

  /** `GetLogsStreaming` (services/project.go:516-555): forwards the compose logs and closes. */
  function GetLogsStreaming(w: World, id: Id, logs: ComposeRun): (r: Step)
    ensures CallsExtend(w, r.world)
    ensures r.world.projects == w.projects && r.world.deployments == w.deployments && r.world.dirs == w.dirs
    ensures Stream.ClosedOnce(w.stream, r.world.stream)
    ensures forall i :: |w.stream| <= i < |r.world.stream| - 1 ==> r.world.stream[i].Forward?
    ensures id !in w.projects ==>
              r == Step(CloseStream(w), Fail(Wrapped("project not found", RecordNotFound)))
    ensures r.outcome.Pass? <==> id in w.projects && logs.outcome.Pass?
    ensures id in w.projects && logs.outcome.Fail? ==> r.outcome == Fail(Wrapped("failed to stream logs", logs.outcome.error))
    // the logs are requested, and what reaches the stream is exactly their lines, then the close
    ensures id in w.projects ==>
              && NewCalls(w, r.world) == [ComposeLogs(id)]
              && Stream.Emitted(w.stream, r.world.stream) == Stream.Forwarded(logs.lines) + [Stream.Close]
  {
    match FindByID(w, id)
    case Err(e) => Step(CloseStream(w), Fail(Wrapped("project not found", e)))
    case Ok(p) =>
      var w1 := ForwardLines(Log(w, ComposeLogs(id)), logs.lines);
      if logs.outcome.Fail? then Step(CloseStream(w1), Fail(Wrapped("failed to stream logs", logs.outcome.error)))
      else Step(CloseStream(w1), Pass)
  }

  /** `Remove` (services/project.go:483-514). */
  function Remove(w: World, id: Id, o: RemoveOracle): (r: Step)
    ensures CallsExtend(w, r.world)
    ensures r.world.stream == w.stream
    ensures id !in w.projects ==> r == Step(w, Fail(Wrapped("project not found", RecordNotFound)))
    // a failed stop leaves the directory and the record as they were
    ensures id in w.projects && (o.stop.compose.Fail? || o.stop.update.Fail?) ==>
              && r.world.dirs == w.dirs && r.world.projects == w.projects && r.world.deployments == w.deployments
              && r.outcome.Fail? && r.outcome.error.Wrapped?
              && r.outcome.error.context == "failed to stop project before removal"
    // the directory goes before the record: the record is deleted only after the removal call
    ensures DeleteProject(id) in NewCalls(w, r.world) ==>
              NewCalls(w, r.world) == [ComposeDown(id), UpdateProject(id), RemoveAll(w.projects[id].workingDir), DeleteProject(id)]
    // a failed directory removal keeps the record
    ensures id in w.projects && o.removeDir.Fail? ==> id in r.world.projects
    ensures r.outcome.Pass? <==>
              id in w.projects && o.stop.compose.Pass? && o.stop.update.Pass? && o.removeDir.Pass? && o.delete.Pass?
    ensures r.outcome.Pass? ==>
              && r.world.projects == w.projects - {id}
              && (forall d :: d in r.world.deployments ==> r.world.deployments[d].projectID != id)
              && (forall q :: q in r.world.dirs ==> !Within(q, w.projects[id].workingDir))
    // ... and every other project's deployments and every directory outside the working dir survive
    ensures r.outcome.Pass? ==>
              && r.world.deployments == Cascaded(w.deployments, id)
              && r.world.dirs == RemoveTree(w.dirs, w.projects[id].workingDir)
    // after a successful stop, a failed removal changes nothing beyond the stop itself ...
    ensures id in w.projects && o.stop.compose.Pass? && o.stop.update.Pass? && o.removeDir.Fail? ==>
              && r.world.dirs == w.dirs && r.world.deployments == w.deployments
              && r.world.projects == w.projects[id := w.projects[id].(id := id, status := Status.Stopped)]
              && r.outcome == Fail(Wrapped("failed to remove project directory", o.removeDir.error))
    // ... and a failed delete leaves only the working dir's tree gone
    ensures id in w.projects && o.stop.compose.Pass? && o.stop.update.Pass? && o.removeDir.Pass? && o.delete.Fail? ==>
              && r.world.dirs == RemoveTree(w.dirs, w.projects[id].workingDir) && r.world.deployments == w.deployments
              && r.world.projects == w.projects[id := w.projects[id].(id := id, status := Status.Stopped)]
              && r.outcome == Fail(Wrapped("failed to delete project from database", o.delete.error))
  {
    match FindByID(w, id)
    case Err(e) => Step(w, Fail(Wrapped("project not found", e)))
    case Ok(p) =>
      var stopped := Stop(w, id, o.stop);
      if stopped.outcome.Fail? then
        Step(stopped.world, Fail(Wrapped("failed to stop project before removal", stopped.outcome.error)))
      else
        var r := RemoveStopped(stopped.world, id, p.workingDir, o);
        CallsChain(w, stopped.world, r.world);
        r
  }

  /** The part of `Remove` after the project was stopped: the directory, then
      the record (services/project.go:496-504). */
  function RemoveStopped(w: World, id: Id, dir: Path, o: RemoveOracle): (r: Step)
    ensures CallsExtend(w, r.world)
    ensures r.world.stream == w.stream
    ensures NewCalls(w, r.world) == [RemoveAll(dir)] + (if o.removeDir.Pass? then [DeleteProject(id)] else [])
    ensures o.removeDir.Fail? ==>
              && r.world == Log(w, RemoveAll(dir))
              && r.outcome == Fail(Wrapped("failed to remove project directory", o.removeDir.error))
    ensures o.removeDir.Pass? ==> forall q :: q in r.world.dirs ==> !Within(q, dir)
    ensures o.removeDir.Pass? ==> r.world.dirs == RemoveTree(w.dirs, dir)
    ensures o.removeDir.Pass? && o.delete.Fail? ==>
              && r.world.projects == w.projects && r.world.deployments == w.deployments
              && r.outcome == Fail(Wrapped("failed to delete project from database", o.delete.error))
    ensures r.outcome.Pass? <==> o.removeDir.Pass? && o.delete.Pass?
    ensures r.outcome.Pass? ==>
              && r.world.projects == w.projects - {id}
              && (forall d :: d in r.world.deployments ==> r.world.deployments[d].projectID != id)
    ensures r.outcome.Pass? ==>
              && r.world.deployments == Cascaded(w.deployments, id)
              && r.world.dirs == RemoveTree(w.dirs, dir)
  {
    var removed := RemoveDir(w, dir, o.removeDir);
    if removed.outcome.Fail? then
      Step(removed.world, Fail(Wrapped("failed to remove project directory", removed.outcome.error)))
    else
      var deleted := DeleteProjectRow(removed.world, id, o.delete);
      CallsChain(w, removed.world, deleted.world);
      if deleted.outcome.Fail? then
        Step(deleted.world, Fail(Wrapped("failed to delete project from database", deleted.outcome.error)))
      else Step(deleted.world, Pass)
  }
}

=== FILE: status.dfy ===
/** The project status enumeration and its string encoding (services/project.go:13-50).
    In Go `ProjectStatus` is an `int`, so values outside the four named
    constants exist; they are kept here by making the status an `int` too. */
module Status {
  import Outcomes

  type ProjectStatus = int

  const Running: ProjectStatus := 0
  const Stopped: ProjectStatus := 1
  const Error: ProjectStatus := 2
  const Unknown: ProjectStatus := 3

  /** One of the four declared constants. */
  predicate Named(s: ProjectStatus)
  {
    Running <= s <= Unknown
  }

  /** The four spellings the store accepts. */
  const Names: set<string> := {"running", "stopped", "error", "unknown"}

  /** `ProjectStatus.String`: total, and every value without a name of its own
      (including every out-of-range integer) prints as "unknown". */
  function ToString(s: ProjectStatus): (r: string)
    ensures r in Names
    ensures r == "running" <==> s == Running
    ensures r == "stopped" <==> s == Stopped
    ensures r == "error" <==> s == Error
    ensures r == "unknown" <==> !(s == Running || s == Stopped || s == Error)
  {
    if s == Running then "running"
    else if s == Stopped then "stopped"
    else if s == Error then "error"
    else "unknown"
  }

  /** Go's `(ProjectStatus, error)` pair. */
  datatype Parsed = Parsed(status: ProjectStatus, err: Outcomes.Option<Outcomes.Error>)

  /** `ParseProjectStatus`: exactly the four names parse without error; any other
      string yields `Unknown` together with an invalid-status error naming it. */
  function Parse(text: string): (r: Parsed)
    ensures Named(r.status)
    ensures r.err.None? <==> text in Names
    ensures r.err.Some? ==> r.status == Unknown && r.err.value == Outcomes.InvalidStatus(text)
  {
    if text == "running" then Parsed(Running, Outcomes.None)
    else if text == "stopped" then Parsed(Stopped, Outcomes.None)
    else if text == "error" then Parsed(Error, Outcomes.None)
    else if text == "unknown" then Parsed(Unknown, Outcomes.None)
    else Parsed(Unknown, Outcomes.Some(Outcomes.InvalidStatus(text)))
  }

  /** Each named status survives printing and parsing back. */
  lemma ParseToString(s: ProjectStatus)
    requires Named(s)
    ensures Parse(ToString(s)) == Parsed(s, Outcomes.None)
  {
  }

  /** Every string that parses cleanly is printed back unchanged. */
  lemma ToStringParse(text: string)
    requires Parse(text).err.None?
    ensures ToString(Parse(text).status) == text
  {
  }

  /** An out-of-range status is not preserved: it comes back as `Unknown`. */
  lemma OutOfRangeCollapses(s: ProjectStatus)
    requires !Named(s)
    ensures Parse(ToString(s)) == Parsed(Unknown, Outcomes.None)
  {
  }
}

=== FILE: store.dfy ===
/** The domain records and the state every service operation reads and writes:
    the project and deployment stores (the `ProjectRepository` and
    `DeploymentRepository` interfaces, services/repository.go:12-19 and
    101-105), the directories on disk, the progress stream, and the log of
    calls made to collaborators with side effects. Whether a write succeeds
    is decided by an oracle outcome; on top of that the store keeps the
    constraints its schema declares (primary keys, unique project names,
    deployments referring to an existing project, cascading delete). */
module Store {
  import opened Outcomes
  import opened Paths
  import Status
  import Stream

  type Id = string

  datatype Project = Project(
    id: Id,
    name: string,
    gitURL: string,
    workingDir: Path,
    composeFiles: seq<string>,
    environmentFiles: seq<string>,
    status: Status.ProjectStatus,
    lastCommit: Option<string>)

  datatype DeploymentStatus = InProgress | Completed | Failed

  datatype Deployment = Deployment(
    id: Id,
    projectID: Id,
    commitHash: string,
    commandLine: string,
    status: DeploymentStatus,
    output: string)

  /** The collaborator calls that change something outside the service. */
  datatype Call =
    | Clone(url: string, dir: Path)
    | Pull(dir: Path)
    | ComposeUp(project: Id)
    | ComposeDown(project: Id)
    | ComposeLogs(project: Id)
    | MkdirAll(dir: Path)
    | Move(from: Path, to: Path)
    | RemoveAll(dir: Path)
    | CreateProject(project: Id)
    | UpdateProject(project: Id)
    | DeleteProject(project: Id)
    | CreateDeployment(deployment: Id)

  datatype World = World(
    projects: map<Id, Project>,
    deployments: map<Id, Deployment>,
    dirs: set<Path>,
    stream: seq<Stream.Event>,
    calls: seq<Call>)

  /** The outcome of a call that returns only an error, with the state after it. */
  datatype Step = Step(world: World, outcome: Outcome)

  /** Store invariant: rows are keyed by their id, every working directory is
      `<workspace>/<id>`, names are unique, every deployment belongs to a stored project. */
  predicate Consistent(w: World, workspace: Path)
  {
    && (forall id :: id in w.projects ==> w.projects[id].id == id)
    && (forall id :: id in w.projects ==> w.projects[id].workingDir == Join(workspace, id))
    && (forall a, b :: a in w.projects && b in w.projects && a != b ==>
          w.projects[a].name != w.projects[b].name)
    && (forall d :: d in w.deployments ==> w.deployments[d].projectID in w.projects)
  }

  function Log(w: World, c: Call): World
  {
    w.(calls := w.calls + [c])
  }

  /** `after` only adds to the call log of `before`. */
  predicate CallsExtend(before: World, after: World)
  {
    |before.calls| <= |after.calls| && after.calls[..|before.calls|] == before.calls
  }

  /** The calls made since `before`. */
  function NewCalls(before: World, after: World): seq<Call>
    requires |before.calls| <= |after.calls|
  {
    after.calls[|before.calls|..]
  }

  /** Call logs compose: what `a` to `c` added is what `a` to `b` added, then what `b` to `c` added. */
  lemma CallsChain(a: World, b: World, c: World)
    requires CallsExtend(a, b) && CallsExtend(b, c)
    ensures CallsExtend(a, c)
    ensures NewCalls(a, c) == NewCalls(a, b) + NewCalls(b, c)
  {
    assert c.calls[..|a.calls|] == c.calls[..|b.calls|][..|a.calls|];
    assert c.calls[|a.calls|..] == c.calls[|a.calls|..|b.calls|] + c.calls[|b.calls|..];
    assert c.calls[|a.calls|..|b.calls|] == b.calls[|a.calls|..];
  }

  /** `outputChan <- "OAR_MSG:<level>:<text>"`. */
  function Emit(w: World, l: Stream.Level, text: string): (r: World)
    ensures Stream.SendsOnly(w.stream, r.stream)
  {
    w.(stream := w.stream + [Stream.Message(l, text)])
  }

  /** `close(outputChan)`. */
  function CloseStream(w: World): World
  {
    w.(stream := w.stream + [Stream.Close])
  }

  /** `FindByID`: the row stored under `id`, read back with `id` as its identity,
      or the not-found error. */
  function FindByID(w: World, id: Id): (r: Result<Project>)
    ensures r.Ok? <==> id in w.projects
    ensures r.Ok? ==> r.value.id == id
    ensures r.Ok? ==> r.value == w.projects[id].(id := id)
    ensures r.Err? ==> r.error == RecordNotFound
  {
    if id in w.projects then Ok(w.projects[id].(id := id)) else Err(RecordNotFound)
  }

  /** `ProjectRepository.Create`: refused on a duplicate id or name, otherwise as the oracle says. */
  function CreateProjectRow(w: World, p: Project, o: Outcome): (r: Step)
    ensures r.world.calls == w.calls + [CreateProject(p.id)]
    ensures r.world.deployments == w.deployments && r.world.dirs == w.dirs && r.world.stream == w.stream
    ensures r.outcome.Pass? ==> o.Pass? && p.id !in w.projects && r.world.projects == w.projects[p.id := p]
    ensures r.outcome.Pass? ==> forall k :: k in w.projects ==> w.projects[k].name != p.name
    ensures r.outcome.Fail? ==> r.world.projects == w.projects
    ensures (r.outcome.Fail? && p.id !in w.projects &&
             forall k :: k in w.projects ==> w.projects[k].name != p.name) ==> r.outcome == o
  {
    var w1 := Log(w, CreateProject(p.id));
    if p.id in w.projects then Step(w1, Fail(Constraint("UNIQUE constraint failed: project_models.id")))
    else if exists k :: k in w.projects && w.projects[k].name == p.name then
      Step(w1, Fail(Constraint("UNIQUE constraint failed: project_models.name")))
    else if o.Fail? then Step(w1, o)
    else Step(w1.(projects := w.projects[p.id := p]), Pass)
  }

  /** `ProjectRepository.Update`: replaces the row with the same id; a missing row is left missing. */
  function UpdateProjectRow(w: World, p: Project, o: Outcome): (r: Step)
    ensures r.world.calls == w.calls + [UpdateProject(p.id)]
    ensures r.world.deployments == w.deployments && r.world.dirs == w.dirs && r.world.stream == w.stream
    ensures r.outcome == o
    ensures r.world.projects.Keys == w.projects.Keys
    ensures r.outcome.Pass? && p.id in w.projects ==> r.world.projects == w.projects[p.id := p]
    ensures r.outcome.Fail? || p.id !in w.projects ==> r.world.projects == w.projects
  {
    var w1 := Log(w, UpdateProject(p.id));
    if o.Fail? || p.id !in w.projects then Step(w1, o)
    else Step(w1.(projects := w.projects[p.id := p]), Pass)
  }

  /** `ProjectRepository.Delete`: removes the row and, by the schema's cascade, its deployments. */
  function DeleteProjectRow(w: World, id: Id, o: Outcome): (r: Step)
    ensures r.world.calls == w.calls + [DeleteProject(id)]
    ensures r.world.dirs == w.dirs && r.world.stream == w.stream
    ensures r.outcome == o
    ensures r.outcome.Pass? ==> r.world.projects == w.projects - {id}
    ensures r.outcome.Pass? ==> forall d :: d in r.world.deployments ==>
              && d in w.deployments && r.world.deployments[d] == w.deployments[d]
              && r.world.deployments[d].projectID != id
    ensures r.outcome.Pass? ==> forall d :: d in w.deployments && w.deployments[d].projectID != id ==>
              d in r.world.deployments && r.world.deployments[d] == w.deployments[d]
    ensures r.outcome.Fail? ==> r.world.projects == w.projects && r.world.deployments == w.deployments
  {
    var w1 := Log(w, DeleteProject(id));
    if o.Fail? then Step(w1, o)
    else
      Step(w1.(projects := w.projects - {id}, deployments := Cascaded(w.deployments, id)), Pass)
  }

  /** The deployments that survive deleting project `id`: all those of other projects, unchanged. */
  function Cascaded(ds: map<Id, Deployment>, id: Id): (r: map<Id, Deployment>)
    ensures forall d :: d in r <==> d in ds && ds[d].projectID != id
    ensures forall d :: d in r ==> r[d] == ds[d]
  {
    map d | d in ds && ds[d].projectID != id :: ds[d]
  }

  /** `DeploymentRepository.Create`: refused on a duplicate id or a missing project. */
  function CreateDeploymentRow(w: World, d: Deployment, o: Outcome): (r: Step)
    ensures r.world.calls == w.calls + [CreateDeployment(d.id)]
    ensures r.world.projects == w.projects && r.world.dirs == w.dirs && r.world.stream == w.stream
    ensures r.outcome.Pass? ==> o.Pass? && d.projectID in w.projects && d.id !in w.deployments
    ensures r.outcome.Pass? ==> r.world.deployments == w.deployments[d.id := d]
    ensures r.outcome.Fail? ==> r.world.deployments == w.deployments
    ensures r.outcome.Fail? && d.projectID in w.projects && d.id !in w.deployments ==> r.outcome == o
  {
    var w1 := Log(w, CreateDeployment(d.id));
    if d.id in w.deployments then Step(w1, Fail(Constraint("UNIQUE constraint failed: deployment_models.id")))
    else if d.projectID !in w.projects then Step(w1, Fail(Constraint("FOREIGN KEY constraint failed")))
    else if o.Fail? then Step(w1, o)
    else Step(w1.(deployments := w.deployments[d.id := d]), Pass)
  }

  /** `os.RemoveAll(dir)`; a failure is taken to remove nothing. */
  function RemoveDir(w: World, dir: Path, o: Outcome): (r: Step)
    ensures r.world.calls == w.calls + [RemoveAll(dir)]
    ensures r.world.projects == w.projects && r.world.deployments == w.deployments && r.world.stream == w.stream
    ensures r.outcome == o
    ensures r.outcome.Pass? ==> r.world.dirs <= w.dirs
    ensures r.outcome.Pass? ==> forall q :: q in r.world.dirs ==> !Within(q, dir)
    ensures r.outcome.Pass? ==> forall q :: q in w.dirs && !Within(q, dir) ==> q in r.world.dirs
    ensures r.outcome.Fail? ==> r.world.dirs == w.dirs
  {
    var w1 := Log(w, RemoveAll(dir));
    if o.Fail? then Step(w1, o) else Step(w1.(dirs := RemoveTree(w.dirs, dir)), Pass)
  }

  /** `NewDeployment(projectID, commitHash)`: a fresh, unsaved record in progress.
      Its id and command line come from outside the model. */
  function NewDeployment(id: Id, projectID: Id, commitHash: string, commandLine: string): Deployment
  {
    Deployment(id, projectID, commitHash, commandLine, InProgress, "")
  }
}

=== FILE: stream.dfy ===
/** The one-way progress channel of the streaming operations. The channel is
    modelled as the log of everything done to it: each line sent, and the
    close. A line is either the orchestrator's own tagged message or a line
    of compose output forwarded verbatim. */
module Stream {
  import Outcomes

  datatype Level = Default | Success | Error

  /** The tag that marks a line as the orchestrator's own. */
  const Prefix: string := "OAR_MSG"

  function LevelName(l: Level): (name: string)
    ensures ':' !in name
  {
    match l
    case Default => "default"
    case Success => "success"
    case Error => "error"
  }

  function LevelNamed(name: string): (r: Outcomes.Option<Level>)
    ensures r.Some? ==> LevelName(r.value) == name
  {
    if name == "default" then Outcomes.Some(Default)
    else if name == "success" then Outcomes.Some(Success)
    else if name == "error" then Outcomes.Some(Error)
    else Outcomes.None
  }

  /** The wire form `OAR_MSG:<level>:<text>`. */
  function Format(l: Level, text: string): string
  {
    Prefix + ":" + LevelName(l) + ":" + text
  }

  /** Index of the first `c` in `s`, or -1. */
  function IndexOf(s: string, c: char): (i: int)
    ensures -1 <= i < |s|
    ensures i >= 0 ==> s[i] == c
    ensures forall k :: 0 <= k < |s| && (i < 0 || k < i) ==> s[k] != c
    decreases |s|
  {
    if |s| == 0 then -1
    else if s[0] == c then 0
    else
      var j := IndexOf(s[1..], c);
      if j < 0 then -1 else j + 1
  }

  /** How a consumer reads a line: the prefix, then a split on the first two colons only. */
  function Decode(line: string): Outcomes.Option<(Level, string)>
  {
    var head := Prefix + ":";
    if |line| < |head| || line[..|head|] != head then Outcomes.None
    else
      var rest := line[|head|..];
      var i := IndexOf(rest, ':');
      if i < 0 then Outcomes.None
      else match LevelNamed(rest[..i])
        case None => Outcomes.None
        case Some(l) => Outcomes.Some((l, rest[i + 1..]))
  }

  /** Every tagged message reads back as its level and text, whatever colons the text holds. */
  lemma DecodeFormat(l: Level, text: string)
    ensures Decode(Format(l, text)) == Outcomes.Some((l, text))
  {
    var head := Prefix + ":";
    var name := LevelName(l);
    var line := Format(l, text);
    assert line == head + (name + ":" + text);
    assert line[..|head|] == head;
    var rest := line[|head|..];
    assert rest == name + ":" + text;
    assert rest[|name|] == ':';
    var i := IndexOf(rest, ':');
    assert i == |name|;
    assert rest[..i] == name;
    assert rest[i + 1..] == text;
  }

  /** Only tagged messages decode, and they decode to what formats back to the line. */
  lemma FormatDecode(line: string)
    requires Decode(line).Some?
    ensures Format(Decode(line).value.0, Decode(line).value.1) == line
  {
    var head := Prefix + ":";
    var rest := line[|head|..];
    var i := IndexOf(rest, ':');
    assert rest == rest[..i] + ":" + rest[i + 1..];
    assert line == head + rest;
  }

  datatype Event =
    | Message(level: Level, text: string)   // a line the orchestrator writes itself
    | Forward(line: string)                 // a line of compose output passed through
    | Close

  /** The string that travels on the channel for a sent line. */
  function Wire(e: Event): string
    requires !e.Close?
  {
    match e
    case Message(l, t) => Format(l, t)
    case Forward(line) => line
  }

  /** The compose executor's output, passed through line by line. */
  function Forwarded(lines: seq<string>): (r: seq<Event>)
    ensures |r| == |lines|
    ensures forall i :: 0 <= i < |r| ==> r[i] == Forward(lines[i])
  {
    seq(|lines|, i requires 0 <= i < |lines| => Forward(lines[i]))
  }

  /** `after` extends `before` by sends only. */
  predicate SendsOnly(before: seq<Event>, after: seq<Event>)
  {
    && |before| <= |after|
    && after[..|before|] == before
    && forall i :: |before| <= i < |after| ==> !after[i].Close?
  }

  /** `after` extends `before` by some sends and then exactly one close, the last event. */
  predicate ClosedOnce(before: seq<Event>, after: seq<Event>)
  {
    && |before| < |after|
    && after[|after| - 1] == Close
    && SendsOnly(before, after[..|after| - 1])
  }

  /** Closing after a run of sends closes exactly once. */
  lemma CloseAfterSends(before: seq<Event>, mid: seq<Event>)
    requires SendsOnly(before, mid)
    ensures ClosedOnce(before, mid + [Close])
  {
    assert (mid + [Close])[..|mid|] == mid;
  }

  /** Sends before an operation that closes exactly once still close exactly once overall. */
  lemma SendsThenClosedOnce(a: seq<Event>, b: seq<Event>, c: seq<Event>)
    requires SendsOnly(a, b) && ClosedOnce(b, c)
    ensures ClosedOnce(a, c)
  {
    SendsOnlyTrans(a, b, c[..|c| - 1]);
  }

  lemma SendsOnlyTrans(a: seq<Event>, b: seq<Event>, c: seq<Event>)
    requires SendsOnly(a, b) && SendsOnly(b, c)
    ensures SendsOnly(a, c)
  {
    assert c[..|a|] == c[..|b|][..|a|];
  }

  /** The events an operation appended. */
  function Emitted(before: seq<Event>, after: seq<Event>): seq<Event>
    requires |before| <= |after|
  {
    after[|before|..]
  }

  /** Appending `es` emits exactly `es`. */
  lemma EmittedAppend(before: seq<Event>, es: seq<Event>)
    ensures Emitted(before, before + es) == es
  {
  }

  lemma AppendAssoc(a: seq<Event>, b: seq<Event>, c: seq<Event>)
    ensures a + (b + c) == a + b + c
  {
  }

  /** What a run of appends emitted is what each stretch of it emitted, in order. */
  lemma EmittedChain(a: seq<Event>, b: seq<Event>, c: seq<Event>)
    requires |a| <= |b| <= |c| && b[..|a|] == a && c[..|b|] == b
    ensures Emitted(a, c) == Emitted(a, b) + Emitted(b, c)
  {
    assert c[|a|..] == c[|a|..|b|] + c[|b|..];
    assert c[|a|..|b|] == b[|a|..];
  }

  /** What two runs of sends and then a close appended, split into its parts. */
  lemma EmittedThenClose(a: seq<Event>, b: seq<Event>, c: seq<Event>)
    requires SendsOnly(a, b) && SendsOnly(b, c)
    ensures |a| <= |c| + 1
    ensures Emitted(a, c + [Close]) == Emitted(a, b) + Emitted(b, c) + [Close]
  {
    assert c[..|b|] == b;
    assert (c + [Close])[|a|..] == c[|a|..] + [Close];
    assert c[|a|..] == b[|a|..] + c[|b|..];
  }

  /** The levels of the orchestrator's own messages, in order. */
  function OwnLevels(es: seq<Event>): seq<Level>
  {
    if |es| == 0 then []
    else (if es[0].Message? then [es[0].level] else []) + OwnLevels(es[1..])
  }

  /** Every own message sent is a well-formed tagged line. */
  lemma OwnMessagesTagged(es: seq<Event>, i: nat)
    requires i < |es| && es[i].Message?
    ensures Decode(Wire(es[i])) == Outcomes.Some((es[i].level, es[i].text))
  {
    DecodeFormat(es[i].level, es[i].text);
  }

  lemma {:induction false} OwnLevelsForwarded(lines: seq<string>)
    ensures OwnLevels(Forwarded(lines)) == []
    decreases |lines|
  {
    if |lines| > 0 {
      assert Forwarded(lines)[1..] == Forwarded(lines[1..]);
      OwnLevelsForwarded(lines[1..]);
    }
  }

  lemma {:induction false} OwnLevelsAppend(a: seq<Event>, b: seq<Event>)
    ensures OwnLevels(a + b) == OwnLevels(a) + OwnLevels(b)
    decreases |a|
  {
    if |a| > 0 {
      assert (a + b)[1..] == a[1..] + b;
      OwnLevelsAppend(a[1..], b);
    } else {
      assert a + b == b;
    }
  }

  /** The level of the first event, if it is an own message, followed by the rest's. */
  lemma OwnLevelsCons(e: Event, es: seq<Event>)
    ensures OwnLevels([e] + es) == (if e.Message? then [e.level] else []) + OwnLevels(es)
  {
    assert ([e] + es)[1..] == es;
  }

  /** Forwarded compose output between two stretches of events contributes no levels. */
  lemma {:induction false} OwnLevelsAround(pre: seq<Event>, lines: seq<string>, post: seq<Event>)
    ensures OwnLevels(pre + Forwarded(lines) + post) == OwnLevels(pre) + OwnLevels(post)
  {
    OwnLevelsForwarded(lines);
    OwnLevelsAppend(pre, Forwarded(lines));
    OwnLevelsAppend(pre + Forwarded(lines), post);
  }

  /** An optional closing message followed by the close contributes that message's level. */
  lemma ClosingLevels(m: Event, present: bool)
    requires m.Message?
    ensures OwnLevels((if present then [m] else []) + [Close]) == if present then [m.level] else []
  {
    OwnLevelsCons(Close, []);
    assert [Close] + [] == [Close];
    if present {
      OwnLevelsCons(m, [Close]);
    } else {
      assert [] + [Close] == [Close];
    }
  }
}
